=== FILE: README.md ===
# vkGuideMike engine core in Dafny

This project models the CPU-side bookkeeping of `VulkanEngine`, the class at the
centre of the vkGuideMike renderer. Its public entry points are `init`,
`cleanup`, `draw` and `run` (src/vk_engine.h:52-62). The model covers:

- **Initialisation.** `init` runs its stages in a fixed order. Each stage
  creates GPU objects and registers their destruction on the main deletion
  queue. Slot objects get one per frame in flight: a command buffer, a fence
  created signaled, and a present and a render semaphore. Then come the
  "defaultmesh" material, the uploaded "monkey" mesh, and one render object
  that points at both.
- **The frame-slot ring.** `draw` waits on and resets the current slot's
  fence, acquires a swapchain image, records and submits the slot's command
  buffer, presents, and advances the slot index modulo the number of frames in
  flight.
- **Command recording.** `draw_objects` rebinds a pipeline or vertex buffer
  only when the material or mesh pointer changes from the previous object.
- **The main loop.** `run` calls `draw` once per iteration until a quit event
  arrives.
- **Shutdown.** `cleanup` waits on a fence, flushes the deletion queue and
  destroys the device-level objects.
- **Supporting pieces.** These are the material and mesh registries, the
  shader loader, and the `Vertex` record with its equality and hash.

GPU objects are symbolic handles `Obj(kind, id)`. The GPU's progress is an
explicit environment step, `Engine.GpuComplete`, which signals a slot's fence.
What the window system, the driver and the OBJ loader decide is passed in as a
parameter:

- `InitEnv` carries the swapchain image count, whether the pipeline build
  succeeded, and the OBJ geometry.
- `AcquireOutcome` is the result of acquiring an image.
- `FrameInput` is one loop iteration: the GPU completions, quit, and the
  acquire outcome.

Modules: `Wrappers` (Result), `Handles`, `Meshes` (src/vk_mesh.h),
`Registry`, `Recording` (`draw_objects`), `Teardown` (deletion-queue records and
their destruction order), `Shader` (`load_shader_module`), and `Engine`.

Notes on what the code does:

- `_frameNumber` grows by two per drawn frame, because both `draw_objects`
  (src/vk_engine.cpp:858) and `draw` (src/vk_engine.cpp:295) increment it.
- Draws are non-indexed. The vertex count is the mesh's vertex count truncated
  to 32 bits.
- `upload_mesh` writes vertices straight into a CPU-to-GPU buffer. There is no
  staging copy, no index buffer and no empty-mesh check.
- The transform reaches the shader by push constants. There are no uniform
  buffers or descriptor sets.
- A shader file whose size is not a multiple of four is truncated, not
  rejected.
- A failed image acquire aborts the program (`VK_CHECK`). The swapchain is not
  recreated.
- The header src/vk_engine.h declares one `_renderFence` and one command
  buffer. The implementation in src/vk_engine.cpp uses per-slot vectors, and
  the model follows the implementation.

## Model

| member | source | states |
|---|---|---|
| Meshes.HashIgnoresNormal | src/vk_mesh.h:32-36 | The vertex hash never reads the normal: changing only the normal leaves the hash unchanged. |
| Meshes.HashIsCoarserThanEq | src/vk_mesh.h:24-35 | Two vertices differing only in their normals hash alike yet compare unequal, so the hash is strictly coarser than `==`. |
| Meshes.EqualVerticesHashEqual | src/vk_mesh.h:24-35 | If the glm vector hashes respect float equality, vertices equal under `operator==` have equal hashes. |
| Meshes.VertexEqReflexiveIffNoNaN | src/vk_mesh.h:24-29 | `operator==` holds of a vertex and itself exactly when none of its eleven floats is NaN. |
| Meshes.VertexEqSymmetric | src/vk_mesh.h:24-29 | `operator==` on vertices is symmetric. |
| Registry.Find | src/vk_engine.cpp:796-817 | A lookup returns a pointer exactly when the name is registered, and the pointer designates that name's entry. |
| Registry.CreateMaterial | src/vk_engine.cpp:787-794 | Creating a material adds or overwrites exactly the given name with the given pipeline and layout. It returns a pointer to that entry and leaves every other entry as it was. |
| Registry.GetAfterCreate | src/vk_engine.cpp:787-806 | Looking a material up right after creating it finds the pair just stored. |
| Registry.CreateOverwrites | src/vk_engine.cpp:787-794 | Creating the same name twice keeps one entry, holding the second pipeline and layout. |
| Registry.CreateKeepsOthers | src/vk_engine.cpp:787-794 | Creating one name leaves the lookup of any other name unchanged. |
| Recording.RecordFrom | src/vk_engine.cpp:831-856 | Recording from object i fails exactly when some later object has a null mesh or material pointer, and it fails at such an object. |
| Recording.RecordObjects | src/vk_engine.cpp:819-859 | Recording succeeds exactly when no object holds a null pointer. Otherwise it reports the first null object, all objects before which are non-null. |
| Recording.RecordFromMatchesExpected | src/vk_engine.cpp:828-856 | The loop that tracks the last bound mesh and material emits the same commands as the reference. In the reference, each object binds when it starts a run of equal pointers, then pushes constants, then binds a vertex buffer when it starts a mesh run, then draws. |
| Recording.RecordMatchesReference | src/vk_engine.cpp:819-859 | A recording of non-null objects, started with no mesh or material bound, equals the run-start reference. |
| Recording.GroupCounts | src/vk_engine.cpp:834-855 | One object's commands are at most one pipeline bind, exactly one push constant, at most one vertex-buffer bind and exactly one draw, sized to the object's mesh. |
| Recording.ExpectedFromCounts | src/vk_engine.cpp:831-856 | From object i on, pipeline binds equal the material run starts and vertex-buffer binds equal the mesh run starts. There is one push and one draw per object, and the draws list the objects' vertex counts in order. |
| Recording.BindsCountRuns | src/vk_engine.cpp:828-856 | A whole recording binds as many pipelines as there are maximal runs of equal materials, and as many vertex buffers as there are runs of equal meshes. It pushes and draws once per object, with draws in array order. |
| Recording.VertexCountsInOrder | src/vk_engine.cpp:855 | The k-th draw is sized to the k-th object's mesh vertex count, truncated to 32 bits. |
| Recording.SharedMeshAndMaterialBindOnce | src/vk_engine.cpp:834-853 | When all objects share one mesh and one material, exactly one pipeline bind and one vertex-buffer bind are recorded. |
| Shader.LoadShaderModule | src/vk_engine.cpp:404-443 | An unopenable file and a failed module creation are the two failures. On success, the code size is the file size rounded down to a multiple of four, and all of the file's bytes are read. |
| Shader.CodeSizeRoundsDown | src/vk_engine.cpp:416-433 | The code size is the largest multiple of four not exceeding the file size. |
| Shader.ReadOverrunsBuffer | src/vk_engine.cpp:416-422 | For a file whose size is not a multiple of four, more bytes are read than the word buffer holds. |
| Shader.FiveByteFileOverruns | src/vk_engine.cpp:416-422 | A five-byte file gets a four-byte buffer, five bytes are read into it, and four bytes of code are passed on. |
| Shader.LoadShaderModuleChecked | src/vk_engine.cpp:404-443 | The corrected loader rejects a file whose size is not a multiple of four. It never reads past its buffer, and its code size is the whole file. |
| Shader.CheckedAgreesOnAlignedFiles | src/vk_engine.cpp:413-433 | On unopenable files and word-aligned files, the corrected loader behaves exactly as written. |
| Teardown.FlushOrder | src/vk_engine.cpp:69 | Flushing destroys exactly the objects named by the registered teardown records. |
| Teardown.FlushRespectsDependencies | src/vk_engine.cpp:69 | Two conditions make a flush destroy every object before anything it depends on. Each record must destroy its own objects dependents-first, and no object may depend on one registered later. |
| Teardown.RecordDependentsFirst | src/vk_engine.cpp:695-698 | Every well-typed teardown closure destroys dependents first: the framebuffer before its image view, the depth view before its image, the pipeline before its layout. |
| Teardown.SyncDependentsFirst | src/vk_engine.cpp:719-725 | The sync-object closure destroys fences and semaphores, which depend only on the device, so its order is dependency-safe. |
| Teardown.RankedQueueFlushesSafely | src/vk_engine.cpp:51-69 | A queue of well-typed records registered in strictly increasing (stage, index) rank flushes dependents-first. |
| Engine.NewEngine | src/vk_engine.h:45-48 | A constructed engine is uninitialised, has frame number 0 and a 1000×529 window, and starts at slot 0 with empty registries, renderables and deletion queue. |
| Engine.GetMaterial | src/vk_engine.cpp:796-806 | The result is non-null exactly when the name is registered, and it then designates that material. |
| Engine.GetMesh | src/vk_engine.cpp:808-817 | The result is non-null exactly when the name is registered, and it then designates that mesh. |
| Engine.InitSwapchain | src/vk_engine.cpp:500-554 | The swapchain gets one distinct, non-null view per image the window system returns, plus a depth image and its view. Two records are appended, destroying the swapchain and then the depth view with its image. Nothing else changes. |
| Engine.InitCommands | src/vk_engine.cpp:556-579 | One distinct command buffer is allocated per frame in flight from a non-null pool. Exactly one record destroying that pool is appended. Nothing else changes. |
| Engine.InitDefaultRenderpass | src/vk_engine.cpp:581-668 | A non-null render pass is created and one record destroying it is appended. Nothing else changes. |
| Engine.InitFramebuffers | src/vk_engine.cpp:670-700 | There is one framebuffer per swapchain image view. After the earlier records, one record per framebuffer is appended, destroying it together with its view, in index order. Nothing else changes. |
| Engine.InitSyncStructures | src/vk_engine.cpp:702-726 | Each frame slot gets a fence, created signaled, and two semaphores. One record is appended that destroys every slot's fence and semaphores, slot by slot. Nothing else changes. |
| Engine.InitPipelines | src/vk_engine.cpp:186-200 | The "defaultmesh" material is registered with the mesh pipeline and its layout, and no other name is added. The pipeline is null exactly when the build failed. One record destroying the pipeline and its layout is appended. Nothing else in the engine changes. |
| Engine.UploadMesh | src/vk_engine.cpp:370-400 | A CPU-to-GPU buffer of 44 bytes per vertex holds exactly the mesh's vertices, and other buffers are untouched. The mesh keeps its geometry and records the buffer. One destroy-buffer record is appended. Nothing else in the engine changes. |
| Engine.LoadMeshes | src/vk_engine.cpp:362-368 | "monkey" is registered with the loaded vertices and indices. Its vertex buffer is in the allocator, holds exactly those vertices and is sized to them. One record destroying that buffer is appended. Other meshes are unchanged, and nothing outside the buffers, the meshes and the teardown queue changes. |
| Engine.InitScene | src/vk_engine.cpp:81-88 | Exactly one render object is appended and the earlier ones are kept. Its pointers are the lookups of "monkey" and "defaultmesh": the mesh pointer is non-null exactly when "monkey" is registered, and the material pointer exactly when "defaultmesh" is. Valid pointers stay valid, and nothing else changes. |
| Engine.InitGpuObjects | src/vk_engine.cpp:52-56 | After the GPU-object stages, every slot has four distinct handles and slots share none. All fences are signaled, and there are as many framebuffers as swapchain images. Counters and assets are unchanged. |
| Engine.InitAssets | src/vk_engine.cpp:57-59 | After pipelines, meshes and scene, exactly one render object is appended, pointing at "monkey" and "defaultmesh". Both pointers are valid, the monkey mesh holds the OBJ vertices, and the slot objects are unchanged. |
| Engine.Init | src/vk_engine.cpp:35-63 | `init` leaves a valid, initialised engine. The slot index and frame counter are unchanged and every fence is signaled. Slots are disjoint, there is one framebuffer per swapchain image, and the monkey render object is appended. |
| Engine.FrameCalls | src/vk_engine.cpp:206-278 | A frame's calls contain, in this order: the wait on the slot's fence; the reset and begin of the slot's command buffer; the begin of the render pass on the given framebuffer; exactly the given recorded commands; the end of the render pass; the end of the command buffer; and the submit of that buffer with the slot's semaphores and fence. Other calls may come in between. |
| Engine.FrameCallsFollowProtocol | src/vk_engine.cpp:206-292 | A frame waits on and resets the slot fence, then acquires an image signalling the present semaphore. It submits while waiting on that semaphore and signalling the render semaphore and fence, then presents while waiting on the render semaphore. The acquire and the present name the same given image. |
| Engine.FrameCallsStayInSlot | src/vk_engine.cpp:206-292 | Every per-slot object a frame's calls touch belongs to that frame's slot. |
| Engine.Draw | src/vk_engine.cpp:203-297 | `draw` succeeds exactly when the slot fence is signaled, the acquire succeeds and no render object is null. A pending fence is a timeout and a failed acquire aborts. With a null render object, the error names the first null object `draw_objects` reaches. On success, only the slot's fence becomes pending, the slot index advances and the frame counter grows by two. |
| Engine.DrawFollowsProtocol | src/vk_engine.cpp:206-292 | A successful draw follows the fence and semaphore protocol on the current slot, acquiring and presenting the acquired image index. After the fence wait, it resets and begins that slot's command buffer, then begins a render pass on the acquired image's framebuffer. It records exactly the commands `draw_objects` produces, ends the render pass and the buffer, and only then submits the buffer. |
| Engine.DrawTouchesOnlyCurrentSlot | src/vk_engine.cpp:206-292 | A draw's calls touch only the current slot's objects and none of any other slot's. |
| Engine.GpuComplete | src/vk_engine.cpp:278 | The GPU finishing a slot's submission signals that slot's fence and changes nothing else. |
| Engine.CompleteAll | src/vk_engine.cpp:278 | Completing a list of slots signals exactly those slots' fences and leaves the others as they were. |
| Engine.NextSlot | src/vk_engine.cpp:296 | The next slot stays within the ring. |
| Engine.NextSlotIsMod | src/vk_engine.cpp:296 | The next slot is `(current + 1) % N`. |
| Engine.Advance | src/vk_engine.cpp:296 | After any number of frames the slot index stays within the ring. |
| Engine.AdvanceIsMod | src/vk_engine.cpp:296 | k successive advances equal `(current + k) % N`. |
| Engine.AdvanceReturnsAfterFullCircle | src/vk_engine.cpp:296 | Within one lap of at most N frames, the slot index returns to its start exactly after 0 or N frames. |
| Engine.Step | src/vk_engine.cpp:320-357 | One loop iteration applies the GPU completions and then draws. It succeeds exactly when the current fence was signaled or just completed, the acquire succeeded and no object is null. It advances the slot and adds two to the frame counter. |
| Engine.Run | src/vk_engine.cpp:316-358 | After the loop the engine is valid. The loop stops right after the first iteration with a quit event, which still draws, or when the inputs run out: no earlier iteration carried a quit. The counter grew by two per frame and the slot index advanced one slot per frame. Framebuffers, renderables and the deletion queue are unchanged. |
| Engine.QuitPrefixShifts | src/vk_engine.cpp:320-357 | An iteration without quit followed by a run that stopped at its first quit is a run that stopped at its first quit, one frame longer. |
| Engine.LoopAdvancedComposes | src/vk_engine.cpp:320-357 | One frame of progress followed by k more is k + 1 frames of progress: the counter grows by two and the slot index moves one slot per frame. |
| Engine.SignaledSlotsNeverBlock | src/vk_engine.cpp:316-358 | If the next \|inputs\| ≤ N slots in ring order all have signaled fences, every acquire succeeds and no object is null, then the loop never times out. |
| Engine.InitThenFirstFramesNeverBlock | src/vk_engine.cpp:702-716 | Because fences are created signaled, the first N frames after `init` never wait on the GPU. |
| Engine.AtMostFramesInFlightAhead | src/vk_engine.cpp:203-297 | With no GPU completions the CPU cannot draw more than N frames: the loop fails. If acquires succeed and no object is null, the failure is a fence timeout. |
| Engine.CleanupAsWritten | src/vk_engine.cpp:65-79 | An uninitialised engine is left alone. Otherwise `cleanup` waits on the current slot's fence only, then flushes the queue and destroys the device objects. Every other pending slot is still pending when the flush starts. |
| Engine.Cleanup | src/vk_engine.cpp:65-79 | The corrected cleanup waits on every fence, so no slot is pending at the flush. It destroys the same objects in the same order. |
| Engine.CleanupAfterDrawSkipsSubmittedSlot | src/vk_engine.cpp:68-69 | With N ≥ 2, after a draw the slot just submitted is still pending when the as-written cleanup flushes. The reason is that line 296 has already moved the index past that slot. The corrected cleanup leaves none pending. |
| Engine.GpuObjectsRegisterTeardown | src/vk_engine.cpp:500-726 | The GPU-object stages append, in order, these teardown records: swapchain, depth image, command pool, render pass, one per framebuffer, and the sync objects. |
| Engine.AssetsRegisterTeardown | src/vk_engine.cpp:186-393 | The pipeline stage (lines 186-200) appends the pipeline record, then the mesh upload (lines 391-393) appends the vertex-buffer record. |
| Engine.InitRegistersTeardown | src/vk_engine.cpp:35-63 | `init` appends exactly the teardown records of its stages, in stage order. |
| Engine.InitTeardownsRanked | src/vk_engine.cpp:35-63 | Every teardown record `init` registers is well typed, and the records are registered in strictly increasing (stage, index) rank. |
| Engine.InitThenCleanupRespectsDependencies | src/vk_engine.cpp:65-79 | After `init`, `cleanup` destroys every object before anything it depends on. The as-written and corrected cleanups destroy the same sequence. |
| Engine.RankedQueueFlushesBeforeDevice | src/vk_engine.cpp:69-77 | Flushing a ranked queue and then destroying allocator, device, surface, messenger, instance and window is dependency-safe. |
| Engine.DeviceTeardownDependentsFirst | src/vk_engine.cpp:72-77 | The device-level destruction order is allocator, device, surface, debug messenger, instance, window. Each object comes before those it depends on. |

## Left out

- Vulkan, SDL, VMA and vk-bootstrap calls are opaque. Each becomes a symbolic handle, a recorded call (`Engine.Call`) or an environment parameter.
- `init_vulkan` (instance, device, surface, queue and allocator creation) is not modelled. Its objects appear only in the device-level teardown list.
- The trackball and quaternion math in `run` and `trackballProject` uses floating point and affects only the push-constant matrix. The matrix contents are not modelled. A push-constant command records only the layout it uses.
- Event polling is reduced to one `quit` flag per loop iteration. As in the source, the iteration in which quit arrives still draws.
- Memory mapping and `memcpy` in `upload_mesh` are modelled as the buffer's contents becoming the vertex list.
- `Mesh::load_from_obj` is outside the model. The loaded vertices and indices are unconstrained inputs, so a failed or partial load is covered.
- `DeletionQueue` is declared in vk_types.h, which is not part of this model. `flush` is taken to run the registered closures last-registered-first and then clear the queue.
- vk_initializers.h is not part of this model. The create-info helpers only fill structures.
- `getVertexDescription` and the body of `PipelineBuilder::build_pipeline` are not modelled. The build's outcome is the `pipelineBuilt` input, and a failure yields a null pipeline.
- `_max_frames_in_flight` and the initial value of `_currentFrame` are not declared in the visible header. The frame count N is an engine field of at least 1, and the slot index starts at 0.
- Concurrency between CPU and GPU is the interleaving of `Engine.GpuComplete` steps with frames. Timeouts are not timed: a wait on a pending fence is a timeout.
- Engine.Draw: `VK_CHECK` aborts on any non-success result. The model raises only `FenceTimeout`, `AcquireFailed` and `NullDereference`. Submit, present, command-buffer and `VK_SUBOPTIMAL_KHR` results are taken to succeed.
- Engine.Init: the `VK_CHECK` aborts inside the init stages are not modelled; every creation succeeds except the optional pipeline build. Vulkan's rule that a zero-sized buffer is invalid is not modelled either, so an empty OBJ mesh uploads a buffer of size 0.
- Engine.Run: `_frameNumber` is a 32-bit `int` in the source. Its overflow after about 2^30 frames is not modelled.
- Engine.CleanupAsWritten: the result of the one-second wait in `cleanup` is ignored by the source. The model takes the waited-on fence as signaled when the flush starts.
- Shader.LoadShaderModule: a failed `tellg` (which returns -1) is not modelled. After a failed load, `init_pipelines` passes an uninitialised shader module on; that case appears only as the `pipelineBuilt` input.
- The shader-module destruction in `init_pipelines` happens immediately, not through the deletion queue, so it is not part of the teardown order.

## Findings

| source | as written | input that shows it | evidently intended | confidence | as-written member | corrected member |
|---|---|---|---|---|---|---|
| src/vk_engine.cpp:413-422 | The buffer holds `fileSize / 4` words, but `file.read` writes `fileSize` bytes into it. | A 5-byte shader file: a 4-byte buffer receives 5 bytes. | Read no more than the buffer holds. A SPIR-V file whose size is not a multiple of four is rejected. | not executed | Shader.FiveByteFileOverruns | Shader.LoadShaderModuleChecked |
| src/vk_engine.cpp:68-69 | `cleanup` waits only on `_renderFences[_currentFrame]`. After `draw`'s advance at line 296, that is the oldest slot, not the one just submitted. | N = 2 with one frame drawn from slot 0: cleanup waits on slot 1's fence while slot 0's submission is still pending, then destroys the objects it uses. | Wait on every frame slot's fence (or the device) before flushing the deletion queue. | not executed | Engine.CleanupAfterDrawSkipsSubmittedSlot | Engine.Cleanup |

=== FILE: engine.dfy ===
/**
 * The CPU-side bookkeeping of `VulkanEngine`: initialisation, the frame-slot
 * ring driven by `draw`, the main loop, and shutdown.
 *
 * GPU objects are symbolic handles. The GPU itself appears only through
 * `GpuComplete`, an environment step that signals the fence of a slot whose
 * submitted work has finished. Everything the window system, the driver or the
 * OBJ loader decides is a parameter (`InitEnv`, `AcquireOutcome`, `FrameInput`).
 */
module Engine {
  import opened Wrappers
  import opened Handles
  import opened Meshes
  import opened Registry
  import opened Recording
  import opened Teardown

  datatype Extent2D = Extent2D(width: nat, height: nat)

  /** A frame slot's fence: signaled (its last submission finished) or pending on the GPU. */
  datatype FenceState = Signaled | Pending

  /** The allocator's memory kind; the engine only ever asks for CPU-to-GPU memory. */
  datatype MemoryUsage = CpuToGpu

  /** A buffer as the allocator holds it: its size, its memory kind and what was written to it. */
  datatype DeviceBuffer = DeviceBuffer(sizeBytes: nat, usage: MemoryUsage, contents: seq<Vertex>)

  datatype VulkanEngine = VulkanEngine(
    isInitialized: bool,
    frameNumber: int,
    windowExtent: Extent2D,
    framesInFlight: nat,
    currentFrame: nat,
    swapchain: Handle,
    swapchainImageViews: seq<Handle>,
    depthImage: Handle,
    depthImageView: Handle,
    commandPool: Handle,
    commandBuffers: seq<Handle>,
    renderPass: Handle,
    framebuffers: seq<Handle>,
    renderFences: seq<Handle>,
    fenceStates: seq<FenceState>,
    presentSemaphores: seq<Handle>,
    renderSemaphores: seq<Handle>,
    meshPipelineLayout: Handle,
    meshPipeline: Handle,
    materials: map<string, Material>,
    meshes: map<string, Mesh>,
    buffers: map<Handle, DeviceBuffer>,
    renderables: seq<RenderObject>,
    deletionQueue: seq<Teardown>)

  /** A freshly constructed engine with `framesInFlight` frame slots to be created by `Init`. */
  function NewEngine(framesInFlight: nat): (e: VulkanEngine)
    ensures !e.isInitialized && e.frameNumber == 0 && e.windowExtent == Extent2D(1000, 529)
    ensures e.framesInFlight == framesInFlight && e.currentFrame == 0
    ensures e.deletionQueue == [] && e.renderables == [] && e.materials == map[] && e.meshes == map[]
  {
    VulkanEngine(false, 0, Extent2D(1000, 529), framesInFlight, 0,
                 Null, [], Null, Null, Null, [], Null, [], [], [], [], [], Null, Null,
                 map[], map[], map[], [], [])
  }

  // ---------------------------------------------------------------------------
  // Frame slots

  /** The objects of one frame slot. */
  datatype FrameSlot = FrameSlot(commandBuffer: Handle, renderFence: Handle, presentSemaphore: Handle, renderSemaphore: Handle)

  function SlotHandles(s: FrameSlot): set<Handle> {
    {s.commandBuffer, s.renderFence, s.presentSemaphore, s.renderSemaphore}
  }

  predicate SlotsShaped(e: VulkanEngine) {
    && |e.commandBuffers| == e.framesInFlight
    && |e.renderFences| == e.framesInFlight
    && |e.presentSemaphores| == e.framesInFlight
    && |e.renderSemaphores| == e.framesInFlight
    && |e.fenceStates| == e.framesInFlight
  }

  function Slot(e: VulkanEngine, f: nat): FrameSlot
    requires SlotsShaped(e) && f < e.framesInFlight
  {
    FrameSlot(e.commandBuffers[f], e.renderFences[f], e.presentSemaphores[f], e.renderSemaphores[f])
  }

  /** No object belongs to two frame slots. */
  predicate SlotsDisjoint(e: VulkanEngine)
    requires SlotsShaped(e)
  {
    forall i, j :: 0 <= i < e.framesInFlight && 0 <= j < e.framesInFlight && i != j ==>
      SlotHandles(Slot(e, i)) !! SlotHandles(Slot(e, j))
  }

  /** The state every initialised engine keeps. */
  predicate Valid(e: VulkanEngine) {
    && e.framesInFlight >= 1
    && e.currentFrame < e.framesInFlight
    && SlotsShaped(e)
    && SlotsDisjoint(e)
    && PointersValid(e.renderables, e.meshes, e.materials)
  }

  // ---------------------------------------------------------------------------
  // Registries

  /** `get_material`: a pointer to the named material, or null. */
  function GetMaterial(e: VulkanEngine, name: string): (p: Ptr)
    ensures p.At? <==> name in e.materials
    ensures p.At? ==> p.key == name
    ensures p.At? ==> Deref(e.materials, p) == e.materials[name]
  {
    Find(e.materials, name)
  }

  /** `get_mesh`: a pointer to the named mesh, or null. */
  function GetMesh(e: VulkanEngine, name: string): (p: Ptr)
    ensures p.At? <==> name in e.meshes
    ensures p.At? ==> p.key == name
    ensures p.At? ==> Deref(e.meshes, p) == e.meshes[name]
  {
    Find(e.meshes, name)
  }

  // ---------------------------------------------------------------------------
  // Initialisation

  /** What the window system, the driver and the OBJ loader decide during `init`. */
  datatype InitEnv = InitEnv(swapchainImageCount: nat, pipelineBuilt: bool, objVertices: seq<Vertex>, objIndices: seq<bv32>)

  /**
   * `init_swapchain`: the swapchain with one view per image the window system
   * hands out, and the depth image and its view; the swapchain and the depth
   * pair are registered for teardown in that order.
   */
  function InitSwapchain(e: VulkanEngine, imageCount: nat): (r: VulkanEngine)
    ensures |r.swapchainImageViews| == imageCount
    ensures forall i, j :: 0 <= i < j < imageCount ==> r.swapchainImageViews[i] != r.swapchainImageViews[j]
    ensures forall i :: 0 <= i < imageCount ==> r.swapchainImageViews[i] != Null
    ensures r.swapchain != Null && r.depthImage != Null && r.depthImageView != Null
    ensures r.deletionQueue == e.deletionQueue + [DestroySwapchain(r.swapchain), DestroyDepthImage(r.depthImageView, r.depthImage)]
    ensures r == e.(swapchain := r.swapchain, swapchainImageViews := r.swapchainImageViews, depthImage := r.depthImage,
                    depthImageView := r.depthImageView, deletionQueue := r.deletionQueue)
  {
    var swapchain := Obj(Swapchain, 0);
    var depthImage := Obj(DepthImage, 0);
    var depthView := Obj(DepthImageView, 0);
    e.(swapchain := swapchain,
       swapchainImageViews := seq(imageCount, i requires 0 <= i => Obj(SwapchainImageView, i)),
       depthImage := depthImage,
       depthImageView := depthView,
       deletionQueue := e.deletionQueue + [DestroySwapchain(swapchain), DestroyDepthImage(depthView, depthImage)])
  }

  /** `init_commands`: one command pool and one command buffer per frame slot. */
  function InitCommands(e: VulkanEngine): (r: VulkanEngine)
    ensures |r.commandBuffers| == e.framesInFlight
    ensures forall i, j :: 0 <= i < j < e.framesInFlight ==> r.commandBuffers[i] != r.commandBuffers[j]
    ensures r.commandPool != Null
    ensures r.deletionQueue == e.deletionQueue + [DestroyCommandPool(r.commandPool)]
    ensures r == e.(commandPool := r.commandPool, commandBuffers := r.commandBuffers, deletionQueue := r.deletionQueue)
  {
    var pool := Obj(CommandPool, 0);
    e.(commandPool := pool,
       commandBuffers := seq(e.framesInFlight, i requires 0 <= i => Obj(CommandBuffer, i)),
       deletionQueue := e.deletionQueue + [DestroyCommandPool(pool)])
  }

  /** `init_default_renderpass`: the one render pass, registered for teardown. */
  function InitDefaultRenderpass(e: VulkanEngine): (r: VulkanEngine)
    ensures r.renderPass != Null
    ensures r.deletionQueue == e.deletionQueue + [DestroyRenderPass(r.renderPass)]
    ensures r == e.(renderPass := r.renderPass, deletionQueue := r.deletionQueue)
  {
    var pass := Obj(RenderPass, 0);
    e.(renderPass := pass, deletionQueue := e.deletionQueue + [DestroyRenderPass(pass)])
  }

  /**
   * `init_framebuffers`: one framebuffer per swapchain image view, each
   * registered for teardown together with the view it renders into.
   */
  function InitFramebuffers(e: VulkanEngine): (r: VulkanEngine)
    ensures |r.framebuffers| == |e.swapchainImageViews|
    ensures |r.deletionQueue| == |e.deletionQueue| + |e.swapchainImageViews|
    ensures forall i :: 0 <= i < |e.swapchainImageViews| ==>
              r.deletionQueue[|e.deletionQueue| + i] == DestroyFramebuffer(r.framebuffers[i], e.swapchainImageViews[i])
    ensures r.deletionQueue[..|e.deletionQueue|] == e.deletionQueue
    ensures r == e.(framebuffers := r.framebuffers, deletionQueue := r.deletionQueue)
  {
    var count := |e.swapchainImageViews|;
    var framebuffers := seq(count, i requires 0 <= i => Obj(Framebuffer, i));
    e.(framebuffers := framebuffers,
       deletionQueue := e.deletionQueue + seq(count, i requires 0 <= i < count => DestroyFramebuffer(framebuffers[i], e.swapchainImageViews[i])))
  }

  /** `init_sync_structures`: per slot a fence created signaled and two semaphores. */
  function InitSyncStructures(e: VulkanEngine): (r: VulkanEngine)
    ensures |r.renderFences| == |r.fenceStates| == |r.presentSemaphores| == |r.renderSemaphores| == e.framesInFlight
    ensures forall i :: 0 <= i < e.framesInFlight ==> r.fenceStates[i] == Signaled
    ensures |r.deletionQueue| == |e.deletionQueue| + 1 && r.deletionQueue[..|e.deletionQueue|] == e.deletionQueue
    ensures r.deletionQueue[|e.deletionQueue|].DestroySyncObjects?
    ensures var syncs := r.deletionQueue[|e.deletionQueue|].frames;
            |syncs| == e.framesInFlight &&
            forall i :: 0 <= i < e.framesInFlight ==>
              syncs[i] == FrameSync(r.renderFences[i], r.presentSemaphores[i], r.renderSemaphores[i])
    ensures r == e.(renderFences := r.renderFences, fenceStates := r.fenceStates, presentSemaphores := r.presentSemaphores,
                    renderSemaphores := r.renderSemaphores, deletionQueue := r.deletionQueue)
  {
    var n := e.framesInFlight;
    var fences := seq(n, i requires 0 <= i => Obj(Fence, i));
    var presents := seq(n, i requires 0 <= i => Obj(PresentSemaphore, i));
    var renders := seq(n, i requires 0 <= i => Obj(RenderSemaphore, i));
    e.(renderFences := fences,
       fenceStates := seq(n, i => Signaled),
       presentSemaphores := presents,
       renderSemaphores := renders,
       deletionQueue := e.deletionQueue
         + [DestroySyncObjects(seq(n, i requires 0 <= i < n => FrameSync(fences[i], presents[i], renders[i])))])
  }

  /**
   * `init_pipelines`: the mesh pipeline layout, the pipeline (null when the
   * driver rejects it) and the "defaultmesh" material built from the two.
   */
  function InitPipelines(e: VulkanEngine, pipelineBuilt: bool): (r: VulkanEngine)
    ensures "defaultmesh" in r.materials
    ensures r.materials["defaultmesh"] == Material(r.meshPipeline, r.meshPipelineLayout)
    ensures r.materials.Keys == e.materials.Keys + {"defaultmesh"}
    ensures r.meshPipeline == Null <==> !pipelineBuilt
    ensures r.meshPipelineLayout != Null
    ensures r.deletionQueue == e.deletionQueue + [DestroyPipeline(r.meshPipeline, r.meshPipelineLayout)]
    ensures r == e.(meshPipelineLayout := r.meshPipelineLayout, meshPipeline := r.meshPipeline,
                    materials := r.materials, deletionQueue := r.deletionQueue)
  {
    var layout := Obj(PipelineLayout, 0);
    var pipeline := if pipelineBuilt then Obj(Pipeline, 0) else Null;
    var (materials, _) := CreateMaterial(e.materials, pipeline, layout, "defaultmesh");
    e.(meshPipelineLayout := layout,
       meshPipeline := pipeline,
       materials := materials,
       deletionQueue := e.deletionQueue + [DestroyPipeline(pipeline, layout)])
  }

  /**
   * `upload_mesh`: allocates a CPU-to-GPU vertex buffer sized to the vertices,
   * registers its destruction, and copies the vertices into it. There is no
   * staging copy, no index buffer and no check for an empty mesh.
   */
  function UploadMesh(e: VulkanEngine, mesh: Mesh, buffer: AllocatedBuffer): (r: (VulkanEngine, Mesh))
    ensures buffer.buffer in r.0.buffers
    ensures r.0.buffers[buffer.buffer].contents == mesh.vertices
    ensures r.0.buffers[buffer.buffer].sizeBytes == |mesh.vertices| * VertexSize
    ensures r.0.buffers[buffer.buffer].usage == CpuToGpu
    ensures forall h :: h in e.buffers && h != buffer.buffer ==> h in r.0.buffers && r.0.buffers[h] == e.buffers[h]
    ensures r.1.vertexBuffer == buffer
    ensures r.1.vertices == mesh.vertices && r.1.indices == mesh.indices && r.1.indexBuffer == mesh.indexBuffer
    ensures r.0.deletionQueue == e.deletionQueue + [DestroyBuffer(buffer)]
    ensures r.0 == e.(buffers := r.0.buffers, deletionQueue := r.0.deletionQueue)
  {
    var stored := DeviceBuffer(|mesh.vertices| * VertexSize, CpuToGpu, mesh.vertices);
    (e.(buffers := e.buffers[buffer.buffer := stored], deletionQueue := e.deletionQueue + [DestroyBuffer(buffer)]),
     mesh.(vertexBuffer := buffer))
  }

  /** `load_meshes`: the loaded "monkey" mesh, uploaded and registered by name. */
  function LoadMeshes(e: VulkanEngine, vertices: seq<Vertex>, indices: seq<bv32>): (r: VulkanEngine)
    ensures "monkey" in r.meshes && r.meshes.Keys == e.meshes.Keys + {"monkey"}
    ensures r.materials == e.materials
    ensures r.meshPipeline == e.meshPipeline && r.meshPipelineLayout == e.meshPipelineLayout
    ensures r.meshes["monkey"].vertices == vertices && r.meshes["monkey"].indices == indices
    ensures r.meshes["monkey"].vertexBuffer.buffer in r.buffers
    ensures r.buffers[r.meshes["monkey"].vertexBuffer.buffer].contents == vertices
    ensures r.buffers[r.meshes["monkey"].vertexBuffer.buffer].sizeBytes == |vertices| * VertexSize
    ensures r.deletionQueue == e.deletionQueue + [DestroyBuffer(r.meshes["monkey"].vertexBuffer)]
    ensures forall name :: name in e.meshes && name != "monkey" ==> r.meshes[name] == e.meshes[name]
    ensures r == e.(buffers := r.buffers, meshes := r.meshes, deletionQueue := r.deletionQueue)
  {
    var buffer := AllocatedBuffer(Obj(VertexBuffer, 0), Obj(BufferAllocation, 0));
    var (uploaded, mesh) := UploadMesh(e, LoadedMesh(vertices, indices), buffer);
    uploaded.(meshes := uploaded.meshes["monkey" := mesh])
  }

  /** `init_scene`: one render object pointing at the "monkey" mesh and the "defaultmesh" material. */
  function InitScene(e: VulkanEngine): (r: VulkanEngine)
    ensures |r.renderables| == |e.renderables| + 1 && r.renderables[..|e.renderables|] == e.renderables
    ensures r.renderables[|e.renderables|] == RenderObject(GetMesh(e, "monkey"), GetMaterial(e, "defaultmesh"))
    ensures r.renderables[|e.renderables|].mesh.At? <==> "monkey" in e.meshes
    ensures r.renderables[|e.renderables|].material.At? <==> "defaultmesh" in e.materials
    ensures PointersValid(e.renderables, e.meshes, e.materials) ==> PointersValid(r.renderables, r.meshes, r.materials)
    ensures r == e.(renderables := r.renderables)
  {
    var r := e.(renderables := e.renderables + [RenderObject(GetMesh(e, "monkey"), GetMaterial(e, "defaultmesh"))]);
    assert PointersValid(e.renderables, e.meshes, e.materials) ==> PointersValid(r.renderables, r.meshes, r.materials) by {
      forall i | PointersValid(e.renderables, e.meshes, e.materials) && 0 <= i < |r.renderables|
        ensures (r.renderables[i].mesh.At? ==> r.renderables[i].mesh.key in r.meshes)
                && (r.renderables[i].material.At? ==> r.renderables[i].material.key in r.materials)
      {
        if i < |e.renderables| {
          assert r.renderables[i] == e.renderables[i];
        }
      }
    }
    r
  }

  /**
   * The first half of `init`: swapchain and depth image, command buffers,
   * render pass, framebuffers and per-slot sync objects. Each slot gets its own
   * command buffer, a fence created signaled, and two semaphores.
   */
  function InitGpuObjects(e: VulkanEngine, imageCount: nat): (r: VulkanEngine)
    ensures SlotsShaped(r) && SlotsDisjoint(r)
    ensures forall i :: 0 <= i < r.framesInFlight ==> r.fenceStates[i] == Signaled
    ensures forall i :: 0 <= i < r.framesInFlight ==> |SlotHandles(Slot(r, i))| == 4
    ensures |r.framebuffers| == |r.swapchainImageViews| == imageCount
    ensures r.framesInFlight == e.framesInFlight && r.currentFrame == e.currentFrame
    ensures r.frameNumber == e.frameNumber && r.isInitialized == e.isInitialized
    ensures r.renderables == e.renderables && r.meshes == e.meshes && r.materials == e.materials
  {
    var r := InitSyncStructures(InitFramebuffers(InitDefaultRenderpass(InitCommands(InitSwapchain(e, imageCount)))));
    IndexedSlotsDisjoint(r);
    r
  }

  /** Slots whose objects are numbered by slot index have four distinct objects each and share none. */
  lemma IndexedSlotsDisjoint(r: VulkanEngine)
    requires SlotsShaped(r)
    requires forall i :: 0 <= i < r.framesInFlight ==>
               && r.commandBuffers[i] == Obj(CommandBuffer, i) && r.renderFences[i] == Obj(Fence, i)
               && r.presentSemaphores[i] == Obj(PresentSemaphore, i) && r.renderSemaphores[i] == Obj(RenderSemaphore, i)
    ensures SlotsDisjoint(r)
    ensures forall i :: 0 <= i < r.framesInFlight ==> |SlotHandles(Slot(r, i))| == 4
  {
    assert forall i :: 0 <= i < r.framesInFlight ==>
      Slot(r, i) == FrameSlot(Obj(CommandBuffer, i), Obj(Fence, i), Obj(PresentSemaphore, i), Obj(RenderSemaphore, i));
  }

  /**
   * The second half of `init`: the default material, the uploaded "monkey"
   * mesh, and the scene's one render object pointing at both.
   */
  function InitAssets(e: VulkanEngine, env: InitEnv): (r: VulkanEngine)
    requires PointersValid(e.renderables, e.meshes, e.materials)
    ensures PointersValid(r.renderables, r.meshes, r.materials)
    ensures r.renderables == e.renderables + [RenderObject(At("monkey"), At("defaultmesh"))]
    ensures "defaultmesh" in r.materials && r.materials["defaultmesh"] == Material(r.meshPipeline, r.meshPipelineLayout)
    ensures "monkey" in r.meshes && r.meshes["monkey"].vertices == env.objVertices
    ensures r.framesInFlight == e.framesInFlight && r.currentFrame == e.currentFrame
    ensures r.frameNumber == e.frameNumber && r.isInitialized == e.isInitialized
    ensures r.commandBuffers == e.commandBuffers && r.renderFences == e.renderFences && r.fenceStates == e.fenceStates
    ensures r.presentSemaphores == e.presentSemaphores && r.renderSemaphores == e.renderSemaphores
    ensures r.framebuffers == e.framebuffers && r.swapchainImageViews == e.swapchainImageViews
  {
    var e6 := InitPipelines(e, env.pipelineBuilt);
    var e7 := LoadMeshes(e6, env.objVertices, env.objIndices);
    InitScene(e7)
  }

  /**
   * `init`: every stage in source order, then the engine is marked initialised.
   * Any failing API call aborts the process, so only successful runs are modelled.
   */
  function Init(e: VulkanEngine, env: InitEnv): (r: VulkanEngine)
    requires e.framesInFlight >= 1 && e.currentFrame < e.framesInFlight
    requires PointersValid(e.renderables, e.meshes, e.materials)
    ensures Valid(r) && r.isInitialized
    ensures r.framesInFlight == e.framesInFlight && r.currentFrame == e.currentFrame && r.frameNumber == e.frameNumber
    ensures forall i :: 0 <= i < r.framesInFlight ==> r.fenceStates[i] == Signaled
    ensures forall i :: 0 <= i < r.framesInFlight ==> |SlotHandles(Slot(r, i))| == 4
    ensures |r.framebuffers| == |r.swapchainImageViews| == env.swapchainImageCount
    ensures r.renderables == e.renderables + [RenderObject(At("monkey"), At("defaultmesh"))]
    ensures "defaultmesh" in r.materials
    ensures r.materials["defaultmesh"] == Material(r.meshPipeline, r.meshPipelineLayout)
  {
    var gpu := InitGpuObjects(e, env.swapchainImageCount);
    var r := InitAssets(gpu, env).(isInitialized := true);
    SameSlotsSameShape(gpu, r);
    r
  }

  /** Two engines with the same slot fields have the same slots. */
  predicate SameSlotFields(a: VulkanEngine, b: VulkanEngine) {
    && a.framesInFlight == b.framesInFlight
    && a.commandBuffers == b.commandBuffers
    && a.renderFences == b.renderFences
    && a.fenceStates == b.fenceStates
    && a.presentSemaphores == b.presentSemaphores
    && a.renderSemaphores == b.renderSemaphores
  }

  lemma SameSlotsSameShape(a: VulkanEngine, b: VulkanEngine)
    requires SameSlotFields(a, b) && SlotsShaped(a) && SlotsDisjoint(a)
    ensures SlotsShaped(b) && SlotsDisjoint(b)
    ensures forall i :: 0 <= i < b.framesInFlight ==> Slot(b, i) == Slot(a, i)
  {
    forall i | 0 <= i < b.framesInFlight
      ensures Slot(b, i) == Slot(a, i)
    {
    }
    forall i, j | 0 <= i < b.framesInFlight && 0 <= j < b.framesInFlight && i != j
      ensures SlotHandles(Slot(b, i)) !! SlotHandles(Slot(b, j))
    {
      assert Slot(b, i) == Slot(a, i) && Slot(b, j) == Slot(a, j);
    }
  }

  // ---------------------------------------------------------------------------
  // Drawing a frame

  /** The API calls one `draw` makes, with the handles it passes. */
  datatype Call =
    | WaitForFence(fence: Handle)
    | ResetFence(fence: Handle)
    | AcquireNextImage(signalSemaphore: Handle, imageIndex: nat)
    | ResetCommandBuffer(commandBuffer: Handle)
    | BeginCommandBuffer(commandBuffer: Handle)
    | BeginRenderPass(commandBuffer: Handle, renderPass: Handle, framebuffer: Handle)
    | RecordCommands(commandBuffer: Handle, commands: seq<Cmd>)
    | EndRenderPass(commandBuffer: Handle)
    | EndCommandBuffer(commandBuffer: Handle)
    | QueueSubmit(commandBuffer: Handle, waitSemaphore: Handle, signalSemaphore: Handle, fence: Handle)
    | QueuePresent(waitSemaphore: Handle, imageIndex: nat)

  /** The synchronisation and command objects a call names (the render pass and framebuffer are shared by all slots). */
  function SlotObjectsOf(c: Call): set<Handle> {
    match c
    case WaitForFence(f) => {f}
    case ResetFence(f) => {f}
    case AcquireNextImage(s, _) => {s}
    case ResetCommandBuffer(cb) => {cb}
    case BeginCommandBuffer(cb) => {cb}
    case BeginRenderPass(cb, _, _) => {cb}
    case RecordCommands(cb, _) => {cb}
    case EndRenderPass(cb) => {cb}
    case EndCommandBuffer(cb) => {cb}
    case QueueSubmit(cb, w, s, f) => {cb, w, s, f}
    case QueuePresent(w, _) => {w}
  }

  /**
   * The fence/semaphore protocol of one frame on `slot`: wait on and reset the
   * slot's fence; acquire an image signalling the slot's present semaphore; a
   * later submit of the slot's command buffer waits on that semaphore and
   * signals the slot's render semaphore and fence; a later present of the same
   * `image` waits on what the submit signalled.
   */
  predicate FollowsFrameProtocol(calls: seq<Call>, slot: FrameSlot, image: nat) {
    && |calls| >= 2
    && calls[0] == WaitForFence(slot.renderFence)
    && calls[1] == ResetFence(slot.renderFence)
    && exists a, s, p :: 1 < a < s < p < |calls|
         && calls[a] == AcquireNextImage(slot.presentSemaphore, image)
         && calls[s] == QueueSubmit(slot.commandBuffer, slot.presentSemaphore, slot.renderSemaphore, slot.renderFence)
         && calls[p] == QueuePresent(slot.renderSemaphore, image)
  }

  /** `pattern[k]` is `calls[pos[k]]` for every k, at strictly increasing positions. */
  predicate OccursInOrderAt(pattern: seq<Call>, calls: seq<Call>, pos: seq<nat>) {
    && |pos| == |pattern|
    && (forall k :: 0 <= k < |pos| ==> pos[k] < |calls| && calls[pos[k]] == pattern[k])
    && (forall k :: 0 < k < |pos| ==> pos[k - 1] < pos[k])
  }

  /** The calls of `pattern` all occur in `calls`, in that order, possibly with other calls between them. */
  ghost predicate OccursInOrder(pattern: seq<Call>, calls: seq<Call>) {
    exists pos :: OccursInOrderAt(pattern, calls, pos)
  }

  /**
   * How a frame must use the slot's command buffer: only after the fence wait
   * is it reset and begun; the render pass on `framebuffer` is begun, exactly
   * `cmds` are recorded, the render pass and the buffer are ended, and only
   * then is the buffer submitted with the slot's semaphores and fence.
   */
  function CommandBufferUse(slot: FrameSlot, renderPass: Handle, framebuffer: Handle, cmds: seq<Cmd>): seq<Call> {
    var cb := slot.commandBuffer;
    [WaitForFence(slot.renderFence),
     ResetCommandBuffer(cb),
     BeginCommandBuffer(cb),
     BeginRenderPass(cb, renderPass, framebuffer),
     RecordCommands(cb, cmds),
     EndRenderPass(cb),
     EndCommandBuffer(cb),
     QueueSubmit(cb, slot.presentSemaphore, slot.renderSemaphore, slot.renderFence)]
  }

  /** What the swapchain answers to an acquire: an image index, or an error (timeout, out of date). */
  datatype AcquireOutcome = Acquired(imageIndex: nat) | AcquireError

  /** Why a draw aborts the process. */
  datatype DrawError = FenceTimeout | AcquireFailed | NullDereference(objectIndex: nat)

  datatype Frame = Frame(next: VulkanEngine, calls: seq<Call>)

  /** The swapchain only hands out indices of its own images. */
  predicate AcquireValid(e: VulkanEngine, acquire: AcquireOutcome) {
    acquire.Acquired? ==> acquire.imageIndex < |e.framebuffers|
  }

  /**
   * The calls `draw` makes on `slot` once the fence wait has passed and image
   * `image` was acquired, with `cmds` the commands `draw_objects` recorded.
   */
  function FrameCalls(slot: FrameSlot, renderPass: Handle, framebuffer: Handle, image: nat, cmds: seq<Cmd>): (calls: seq<Call>)
    ensures OccursInOrder(CommandBufferUse(slot, renderPass, framebuffer, cmds), calls)
  {
    var cb := slot.commandBuffer;
    var calls :=
      [WaitForFence(slot.renderFence),
       ResetFence(slot.renderFence),
       AcquireNextImage(slot.presentSemaphore, image),
       ResetCommandBuffer(cb),
       BeginCommandBuffer(cb),
       BeginRenderPass(cb, renderPass, framebuffer),
       RecordCommands(cb, cmds),
       EndRenderPass(cb),
       EndCommandBuffer(cb),
       QueueSubmit(cb, slot.presentSemaphore, slot.renderSemaphore, slot.renderFence),
       QueuePresent(slot.renderSemaphore, image)];
    var pattern := CommandBufferUse(slot, renderPass, framebuffer, cmds);
    var pos: seq<nat> := [0, 3, 4, 5, 6, 7, 8, 9];
    assert OccursInOrderAt(pattern, calls, pos) by {
      forall k | 0 <= k < |pos|
        ensures pos[k] < |calls| && calls[pos[k]] == pattern[k]
      {
        assert pos[k] == if k == 0 then 0 else k + 2;
      }
    }
    calls
  }

  lemma FrameCallsFollowProtocol(slot: FrameSlot, renderPass: Handle, framebuffer: Handle, image: nat, cmds: seq<Cmd>)
    ensures FollowsFrameProtocol(FrameCalls(slot, renderPass, framebuffer, image, cmds), slot, image)
  {
    var calls := FrameCalls(slot, renderPass, framebuffer, image, cmds);
    assert calls[2] == AcquireNextImage(slot.presentSemaphore, image);
    assert calls[9] == QueueSubmit(slot.commandBuffer, slot.presentSemaphore, slot.renderSemaphore, slot.renderFence);
    assert calls[10] == QueuePresent(slot.renderSemaphore, image);
  }

  lemma FrameCallsStayInSlot(slot: FrameSlot, renderPass: Handle, framebuffer: Handle, image: nat, cmds: seq<Cmd>)
    ensures var calls := FrameCalls(slot, renderPass, framebuffer, image, cmds);
            forall k :: 0 <= k < |calls| ==> SlotObjectsOf(calls[k]) <= SlotHandles(slot)
  {
    var calls := FrameCalls(slot, renderPass, framebuffer, image, cmds);
    forall k | 0 <= k < |calls|
      ensures SlotObjectsOf(calls[k]) <= SlotHandles(slot)
    {
      if k < 3 {
      } else if k < 6 {
      } else if k < 9 {
      } else {
      }
    }
  }

  /**
   * `draw` on the current slot f. Its fence must already be signaled: the wait
   * gives up after one second, which aborts the process, and GPU progress
   * happens only in `GpuComplete` steps between draws.
   */
  function Draw(e: VulkanEngine, acquire: AcquireOutcome): (r: Result<Frame, DrawError>)
    requires Valid(e) && AcquireValid(e, acquire)
    ensures r.Success? <==> e.fenceStates[e.currentFrame] == Signaled && acquire.Acquired? && NullFree(e.renderables)
    ensures e.fenceStates[e.currentFrame] != Signaled ==> r == Failure(FenceTimeout)
    ensures e.fenceStates[e.currentFrame] == Signaled && acquire.AcquireError? ==> r == Failure(AcquireFailed)
    ensures e.fenceStates[e.currentFrame] == Signaled && acquire.Acquired? && !NullFree(e.renderables) ==>
              && RecordObjects(e.renderables, e.meshes, e.materials).Failure?
              && r == Failure(NullDereference(RecordObjects(e.renderables, e.meshes, e.materials).error))
    ensures r.Success? ==>
              var f := e.currentFrame;
              var n := r.value.next;
              && Valid(n)
              && |n.fenceStates| == e.framesInFlight
              && n.currentFrame == NextSlot(f, e.framesInFlight)
              && n.frameNumber == e.frameNumber + 2
              && n.fenceStates == e.fenceStates[f := Pending]
              && n == e.(currentFrame := n.currentFrame, frameNumber := n.frameNumber, fenceStates := n.fenceStates)
  {
    var f := e.currentFrame;
    var slot := Slot(e, f);
    if e.fenceStates[f] != Signaled then Failure(FenceTimeout)
    else
      match acquire
      case AcquireError => Failure(AcquireFailed)
      case Acquired(image) =>
        match RecordObjects(e.renderables, e.meshes, e.materials)
        case Failure(i) => Failure(NullDereference(i))
        case Success(cmds) =>
          var next := e.(frameNumber := e.frameNumber + 2,
                         currentFrame := NextSlot(f, e.framesInFlight),
                         fenceStates := e.fenceStates[f := Pending]);
          assert SlotsDisjoint(next) by {
            assert forall i :: 0 <= i < e.framesInFlight ==> Slot(next, i) == Slot(e, i);
          }
          Success(Frame(next, FrameCalls(slot, e.renderPass, e.framebuffers[image], image, cmds)))
  }

  /**
   * A successful draw follows the fence/semaphore protocol on the current
   * slot, renders into the acquired image's framebuffer, and records exactly
   * the commands `draw_objects` produces for the renderables.
   */
  lemma DrawFollowsProtocol(e: VulkanEngine, acquire: AcquireOutcome)
    requires Valid(e) && AcquireValid(e, acquire) && Draw(e, acquire).Success?
    ensures FollowsFrameProtocol(Draw(e, acquire).value.calls, Slot(e, e.currentFrame), acquire.imageIndex)
    ensures RecordObjects(e.renderables, e.meshes, e.materials).Success?
    ensures OccursInOrder(CommandBufferUse(Slot(e, e.currentFrame), e.renderPass, e.framebuffers[acquire.imageIndex],
                                           RecordObjects(e.renderables, e.meshes, e.materials).value),
                          Draw(e, acquire).value.calls)
  {
    var f := e.currentFrame;
    var cmds := RecordObjects(e.renderables, e.meshes, e.materials).value;
    FrameCallsFollowProtocol(Slot(e, f), e.renderPass, e.framebuffers[acquire.imageIndex], acquire.imageIndex, cmds);
  }

  /** A successful draw names only objects of the current slot, and none of any other slot. */
  lemma DrawTouchesOnlyCurrentSlot(e: VulkanEngine, acquire: AcquireOutcome)
    requires Valid(e) && AcquireValid(e, acquire) && Draw(e, acquire).Success?
    ensures forall c :: c in Draw(e, acquire).value.calls ==> SlotObjectsOf(c) <= SlotHandles(Slot(e, e.currentFrame))
    ensures forall c, g :: c in Draw(e, acquire).value.calls && 0 <= g < e.framesInFlight && g != e.currentFrame ==>
              SlotObjectsOf(c) !! SlotHandles(Slot(e, g))
  {
    var f := e.currentFrame;
    var cmds := RecordObjects(e.renderables, e.meshes, e.materials).value;
    FrameCallsStayInSlot(Slot(e, f), e.renderPass, e.framebuffers[acquire.imageIndex], acquire.imageIndex, cmds);
    var calls := Draw(e, acquire).value.calls;
    forall c | c in calls
      ensures SlotObjectsOf(c) <= SlotHandles(Slot(e, f))
    {
      var k :| 0 <= k < |calls| && calls[k] == c;
    }
    forall c, g | c in calls && 0 <= g < e.framesInFlight && g != f
      ensures SlotObjectsOf(c) !! SlotHandles(Slot(e, g))
    {
      assert SlotObjectsOf(c) <= SlotHandles(Slot(e, f));
    }
  }

  /** The GPU finishes the work last submitted on slot f, signalling its fence. */
  function GpuComplete(e: VulkanEngine, f: nat): (r: VulkanEngine)
    requires Valid(e) && f < e.framesInFlight
    ensures Valid(r) && |r.fenceStates| == e.framesInFlight && r.fenceStates[f] == Signaled
    ensures forall g :: 0 <= g < e.framesInFlight && g != f ==> r.fenceStates[g] == e.fenceStates[g]
    ensures r == e.(fenceStates := r.fenceStates)
  {
    var r := e.(fenceStates := e.fenceStates[f := Signaled]);
    assert forall i :: 0 <= i < e.framesInFlight ==> Slot(r, i) == Slot(e, i);
    r
  }

  function CompleteAll(e: VulkanEngine, slots: seq<nat>): (r: VulkanEngine)
    requires Valid(e) && forall k :: 0 <= k < |slots| ==> slots[k] < e.framesInFlight
    ensures Valid(r) && |r.fenceStates| == e.framesInFlight && r == e.(fenceStates := r.fenceStates)
    ensures forall g :: 0 <= g < e.framesInFlight ==>
              r.fenceStates[g] == (if g in slots then Signaled else e.fenceStates[g])
    decreases |slots|
  {
    if |slots| == 0 then e
    else CompleteAll(GpuComplete(e, slots[0]), slots[1..])
  }

  // ---------------------------------------------------------------------------
  // The main loop

  /** One iteration of `run`: the GPU progress seen, whether a quit event arrived, and what the acquire answers. */
  datatype FrameInput = FrameInput(completed: seq<nat>, quit: bool, acquire: AcquireOutcome)

  /** The GPU only completes existing slots, and the swapchain only hands out its own images. */
  predicate InputValid(e: VulkanEngine, input: FrameInput) {
    && (forall j :: 0 <= j < |input.completed| ==> input.completed[j] < e.framesInFlight)
    && AcquireValid(e, input.acquire)
  }

  predicate InputsValid(e: VulkanEngine, inputs: seq<FrameInput>) {
    forall k :: 0 <= k < |inputs| ==> InputValid(e, inputs[k])
  }

  lemma MulAtLeast(d: int, n: int)
    requires d >= 1 && n > 0
    ensures d * n >= n
  {
    assert d * n == n + (d - 1) * n;
  }
  lemma ModUnique(x: int, q: int, r: int, n: int)
    requires n > 0 && x == q * n + r && 0 <= r < n
    ensures x % n == r
  {
    var q' := x / n;
    var r' := x % n;
    assert x == q' * n + r';
    var d := q - q';
    assert d * n == q * n - q' * n;
    assert d * n == r' - r;
    if d >= 1 {
      MulAtLeast(d, n);
    }
  }
  lemma AdvanceMod(c: nat, k: nat, n: nat)
    requires n >= 1
    ensures ((c + 1) % n + k) % n == (c + (k + 1)) % n
  {
    var q := (c + 1) / n;
    var y := (c + 1) % n + k;
    assert c + 1 == q * n + (c + 1) % n;
    assert c + (k + 1) == q * n + y;
    assert y == (y / n) * n + y % n;
    assert q * n + (y / n) * n == (q + y / n) * n;
    ModUnique(c + (k + 1), q + y / n, y % n, n);
  }

  /** The slot after c in a ring of n slots. */
  function NextSlot(c: nat, n: nat): (r: nat)
    ensures c < n ==> r < n
  {
    if c + 1 >= n then 0 else c + 1
  }

  /** `NextSlot` is the source's advance formula `(c + 1) % n`. */
  lemma NextSlotIsMod(c: nat, n: nat)
    requires c < n
    ensures NextSlot(c, n) == (c + 1) % n
  {
    if c + 1 >= n {
      ModUnique(c + 1, 1, 0, n);
    } else {
      ModUnique(c + 1, 0, c + 1, n);
    }
  }

  /** The slot k draws after c. */
  function Advance(c: nat, k: nat, n: nat): (r: nat)
    ensures c < n ==> r < n
    decreases k
  {
    if k == 0 then c else Advance(NextSlot(c, n), k - 1, n)
  }

  /** Stepping through the ring k times from slot c lands on (c + k) mod n, the source's advance formula. */
  lemma {:induction false} AdvanceIsMod(c: nat, k: nat, n: nat)
    requires c < n
    ensures Advance(c, k, n) == (c + k) % n
    decreases k
  {
    if k > 0 {
      AdvanceIsMod(NextSlot(c, n), k - 1, n);
      NextSlotIsMod(c, n);
      AdvanceMod(c, k - 1, n);
    }
  }

  /** One iteration of the loop body: the GPU progress observed, then `draw`. */
  function Step(e: VulkanEngine, input: FrameInput): (r: Result<VulkanEngine, DrawError>)
    requires Valid(e) && InputValid(e, input)
    ensures r.Success? <==>
              && (e.currentFrame in input.completed || e.fenceStates[e.currentFrame] == Signaled)
              && input.acquire.Acquired? && NullFree(e.renderables)
    ensures e.currentFrame !in input.completed && e.fenceStates[e.currentFrame] != Signaled ==> r == Failure(FenceTimeout)
    ensures r.Success? ==>
              && Valid(r.value)
              && r.value.currentFrame == NextSlot(e.currentFrame, e.framesInFlight)
              && r.value.frameNumber == e.frameNumber + 2
              && r.value.framesInFlight == e.framesInFlight && r.value.framebuffers == e.framebuffers
              && r.value.renderables == e.renderables && r.value.deletionQueue == e.deletionQueue
    ensures r.Success? ==>
              |r.value.fenceStates| == e.framesInFlight &&
              forall g :: 0 <= g < e.framesInFlight ==>
                r.value.fenceStates[g] == (if g == e.currentFrame then Pending
                                           else if g in input.completed then Signaled
                                           else e.fenceStates[g])
  {
    var progressed := CompleteAll(e, input.completed);
    assert progressed.fenceStates[e.currentFrame] == Signaled <==>
             (e.currentFrame in input.completed || e.fenceStates[e.currentFrame] == Signaled);
    match Draw(progressed, input.acquire)
    case Failure(err) => Failure(err)
    case Success(frame) =>
      assert frame.next.fenceStates == progressed.fenceStates[e.currentFrame := Pending];
      Success(frame.next)
  }

  /** Where the main loop stopped: the engine and the number of frames drawn. */
  datatype Ran = Ran(engine: VulkanEngine, frames: nat)

  /**
   * `run`: each iteration applies the GPU progress it observed, draws, and
   * stops after the iteration in which a quit event arrived (that iteration
   * still draws).
   */
  function Run(e: VulkanEngine, inputs: seq<FrameInput>): (r: Result<Ran, DrawError>)
    requires Valid(e) && InputsValid(e, inputs)
    ensures r.Success? ==> LoopAdvanced(e, r.value)
    ensures r.Success? ==> StopsAtFirstQuit(inputs, r.value.frames)
    decreases |inputs|
  {
    if |inputs| == 0 then Success(Ran(e, 0))
    else
      match Step(e, inputs[0])
      case Failure(err) => Failure(err)
      case Success(next) =>
        StepAdvances(e, inputs[0], next);
        if inputs[0].quit then Success(Ran(next, 1))
        else
          InputsValidTail(e, next, inputs);
          match Run(next, inputs[1..])
          case Failure(err) => Failure(err)
          case Success(rest) =>
            LoopAdvancedComposes(e, next, rest);
            QuitPrefixShifts(inputs, rest.frames);
            Success(Ran(rest.engine, rest.frames + 1))
  }

  /**
   * Where `ran.frames` iterations of the loop body lead from `e`: a valid
   * engine whose frame clock moved two per frame and whose slot index moved
   * one per frame, with everything initialisation built left alone.
   */
  predicate LoopAdvanced(e: VulkanEngine, ran: Ran) {
    && Valid(ran.engine)
    && ran.engine.frameNumber == e.frameNumber + 2 * ran.frames
    && ran.engine.currentFrame == Advance(e.currentFrame, ran.frames, e.framesInFlight)
    && ran.engine.framesInFlight == e.framesInFlight
    && ran.engine.framebuffers == e.framebuffers
    && ran.engine.renderables == e.renderables
    && ran.engine.deletionQueue == e.deletionQueue
  }

  /** One successful iteration of the loop body is one frame of progress. */
  lemma StepAdvances(e: VulkanEngine, input: FrameInput, next: VulkanEngine)
    requires Valid(e) && InputValid(e, input) && Step(e, input) == Success(next)
    ensures LoopAdvanced(e, Ran(next, 1))
  {
  }

  /** One iteration followed by `rest.frames` more is `rest.frames + 1` iterations. */
  lemma LoopAdvancedComposes(e: VulkanEngine, next: VulkanEngine, rest: Ran)
    requires LoopAdvanced(e, Ran(next, 1)) && LoopAdvanced(next, rest)
    ensures LoopAdvanced(e, Ran(rest.engine, rest.frames + 1))
  {
  }

  /**
   * The loop drew `frames` iterations of `inputs`: it stopped after the first
   * iteration that carried a quit event, or when the inputs ran out.
   */
  predicate StopsAtFirstQuit(inputs: seq<FrameInput>, frames: nat) {
    && frames <= |inputs| && (|inputs| > 0 ==> frames >= 1)
    && (forall k :: 0 <= k < frames - 1 ==> !inputs[k].quit)
    && (frames < |inputs| ==> inputs[frames - 1].quit)
  }

  /** Prepending an iteration without quit keeps the stop at the first quit. */
  lemma QuitPrefixShifts(inputs: seq<FrameInput>, frames: nat)
    requires |inputs| > 0 && !inputs[0].quit && StopsAtFirstQuit(inputs[1..], frames)
    ensures StopsAtFirstQuit(inputs, frames + 1)
  {
  }

  lemma {:induction false} AdvanceLast(c: nat, k: nat, n: nat)
    ensures Advance(c, k + 1, n) == NextSlot(Advance(c, k, n), n)
    decreases k
  {
    if k > 0 {
      AdvanceLast(NextSlot(c, n), k - 1, n);
    }
  }

  /** Fewer than n steps around the ring never return to the start; n steps always do. */
  lemma AdvanceReturnsAfterFullCircle(c: nat, k: nat, n: nat)
    requires c < n && k <= n
    ensures Advance(c, k, n) == c <==> k == 0 || k == n
  {
    AdvanceIsMod(c, k, n);
    if 0 < k < n {
      if c + k < n {
        ModUnique(c + k, 0, c + k, n);
      } else {
        ModUnique(c + k, 1, c + k - n, n);
      }
    } else if k == n {
      ModUnique(c + k, 1, c, n);
    }
  }

  lemma InputsValidTail(e: VulkanEngine, next: VulkanEngine, inputs: seq<FrameInput>)
    requires |inputs| > 0 && InputsValid(e, inputs)
    requires next.framesInFlight == e.framesInFlight && next.framebuffers == e.framebuffers
    ensures InputsValid(next, inputs[1..])
  {
    forall k | 0 <= k < |inputs| - 1
      ensures InputValid(next, inputs[1..][k])
    {
      assert inputs[1..][k] == inputs[k + 1];
      assert InputValid(e, inputs[k + 1]);
    }
  }

  /**
   * While the slots the next draws will use are all signaled, the loop never
   * waits: with successful acquires and no null render object it draws every
   * requested frame (or stops at quit) without a fence timeout.
   */
  lemma {:induction false} SignaledSlotsNeverBlock(e: VulkanEngine, inputs: seq<FrameInput>)
    requires Valid(e) && InputsValid(e, inputs) && NullFree(e.renderables)
    requires |inputs| <= e.framesInFlight
    requires forall k :: 0 <= k < |inputs| ==> inputs[k].acquire.Acquired?
    requires forall j :: 0 <= j < |inputs| ==> e.fenceStates[Advance(e.currentFrame, j, e.framesInFlight)] == Signaled
    ensures Run(e, inputs).Success?
    decreases |inputs|, 1
  {
    if |inputs| > 0 {
      var n := e.framesInFlight;
      assert e.fenceStates[Advance(e.currentFrame, 0, n)] == Signaled;
      assert InputValid(e, inputs[0]);
      if !inputs[0].quit {
        SignaledSlotsAdvance(e, inputs);
      }
    }
  }

  /** The inductive step of `SignaledSlotsNeverBlock`: after one draw, the remaining slots ahead are still signaled. */
  lemma {:induction false} SignaledSlotsAdvance(e: VulkanEngine, inputs: seq<FrameInput>)
    requires Valid(e) && InputsValid(e, inputs) && NullFree(e.renderables)
    requires 0 < |inputs| <= e.framesInFlight && !inputs[0].quit
    requires forall k :: 0 <= k < |inputs| ==> inputs[k].acquire.Acquired?
    requires forall j :: 0 <= j < |inputs| ==> e.fenceStates[Advance(e.currentFrame, j, e.framesInFlight)] == Signaled
    ensures Run(e, inputs).Success?
    decreases |inputs|, 0
  {
    var n := e.framesInFlight;
    assert e.fenceStates[Advance(e.currentFrame, 0, n)] == Signaled;
    assert InputValid(e, inputs[0]);
    var next := Step(e, inputs[0]).value;
    StepKeepsSlotsAheadSignaled(e, inputs[0], |inputs|);
    RunUnfold(e, inputs);
    var rest := inputs[1..];
    assert forall k :: 0 <= k < |rest| ==> rest[k] == inputs[k + 1];
    SignaledSlotsNeverBlock(next, rest);
  }

  /** One successful loop iteration from `e` is followed by the rest of the loop from the state it leaves. */
  lemma RunUnfold(e: VulkanEngine, inputs: seq<FrameInput>)
    requires Valid(e) && InputsValid(e, inputs) && |inputs| > 0 && !inputs[0].quit
    requires Step(e, inputs[0]).Success?
    ensures InputsValid(Step(e, inputs[0]).value, inputs[1..])
    ensures Run(e, inputs).Success? <==> Run(Step(e, inputs[0]).value, inputs[1..]).Success?
    ensures Run(e, inputs).Failure? ==> Run(e, inputs) == Run(Step(e, inputs[0]).value, inputs[1..])
  {
    InputsValidTail(e, Step(e, inputs[0]).value, inputs);
  }

  /** After a successful iteration, the slots ahead of the new current slot that were signaled still are. */
  lemma StepKeepsSlotsAheadSignaled(e: VulkanEngine, input: FrameInput, count: nat)
    requires Valid(e) && InputValid(e, input) && Step(e, input).Success? && count <= e.framesInFlight
    requires forall j :: 0 <= j < count ==> e.fenceStates[Advance(e.currentFrame, j, e.framesInFlight)] == Signaled
    ensures forall j :: 0 <= j < count - 1 ==>
              Step(e, input).value.fenceStates[Advance(Step(e, input).value.currentFrame, j, e.framesInFlight)] == Signaled
  {
    var n := e.framesInFlight;
    var c := e.currentFrame;
    var next := Step(e, input).value;
    forall j | 0 <= j < count - 1
      ensures next.fenceStates[Advance(next.currentFrame, j, n)] == Signaled
    {
      assert Advance(next.currentFrame, j, n) == Advance(c, j + 1, n);
      AdvanceReturnsAfterFullCircle(c, j + 1, n);
      assert e.fenceStates[Advance(c, j + 1, n)] == Signaled;
    }
  }

  /**
   * Right after `init`, every fence was created signaled, so the first
   * `framesInFlight` frames never wait for the GPU.
   */
  lemma InitThenFirstFramesNeverBlock(n: nat, env: InitEnv, inputs: seq<FrameInput>)
    requires 1 <= n && |inputs| <= n
    requires forall k :: 0 <= k < |inputs| ==>
               && inputs[k].acquire.Acquired? && inputs[k].acquire.imageIndex < env.swapchainImageCount
               && forall j :: 0 <= j < |inputs[k].completed| ==> inputs[k].completed[j] < n
    ensures Run(Init(NewEngine(n), env), inputs).Success?
  {
    var e := Init(NewEngine(n), env);
    assert NullFree(e.renderables) by {
      assert e.renderables == [RenderObject(At("monkey"), At("defaultmesh"))];
    }
    assert InputsValid(e, inputs) by {
      forall k | 0 <= k < |inputs|
        ensures InputValid(e, inputs[k])
      {
      }
    }
    SignaledSlotsNeverBlock(e, inputs);
  }

  /**
   * The CPU never gets more than `framesInFlight` frames ahead of the GPU:
   * without GPU progress, the loop cannot complete framesInFlight + 1 draws,
   * and when nothing else goes wrong it is the fence wait that gives up.
   */
  lemma AtMostFramesInFlightAhead(e: VulkanEngine, inputs: seq<FrameInput>)
    requires Valid(e) && InputsValid(e, inputs)
    requires |inputs| > e.framesInFlight
    requires forall k :: 0 <= k < |inputs| ==> inputs[k].completed == [] && !inputs[k].quit
    ensures Run(e, inputs).Failure?
    ensures (forall k :: 0 <= k < |inputs| ==> inputs[k].acquire.Acquired?) && NullFree(e.renderables) ==>
              Run(e, inputs) == Failure(FenceTimeout)
  {
    StalledRingTimesOut(e, inputs, e.currentFrame, 0);
  }

  /**
   * Generalisation of `AtMostFramesInFlightAhead`: m draws have already been
   * made from slot c0 with no GPU progress, so those m slots are pending.
   */
  lemma {:induction false} StalledRingTimesOut(e: VulkanEngine, inputs: seq<FrameInput>, c0: nat, m: nat)
    requires Valid(e) && InputsValid(e, inputs)
    requires c0 < e.framesInFlight && m <= e.framesInFlight && m + |inputs| > e.framesInFlight
    requires e.currentFrame == Advance(c0, m, e.framesInFlight)
    requires forall i :: 0 <= i < m ==> e.fenceStates[Advance(c0, i, e.framesInFlight)] == Pending
    requires forall k :: 0 <= k < |inputs| ==> inputs[k].completed == [] && !inputs[k].quit
    ensures Run(e, inputs).Failure?
    ensures (forall k :: 0 <= k < |inputs| ==> inputs[k].acquire.Acquired?) && NullFree(e.renderables) ==>
              Run(e, inputs) == Failure(FenceTimeout)
    decreases e.framesInFlight - m, 1
  {
    var n := e.framesInFlight;
    assert InputValid(e, inputs[0]);
    assert inputs[0].completed == [];
    if m == n {
      AdvanceReturnsAfterFullCircle(c0, n, n);
      assert e.fenceStates[Advance(c0, 0, n)] == Pending;
      assert Step(e, inputs[0]) == Failure(FenceTimeout);
    } else {
      var step := Step(e, inputs[0]);
      if step.Success? {
        StalledRingAdvances(e, inputs, c0, m);
      } else if (forall k :: 0 <= k < |inputs| ==> inputs[k].acquire.Acquired?) && NullFree(e.renderables) {
        assert inputs[0].acquire.Acquired?;
        assert e.fenceStates[e.currentFrame] != Signaled;
      }
    }
  }

  /** The inductive step of `StalledRingTimesOut`: one more successful draw marks one more slot pending. */
  lemma {:induction false} StalledRingAdvances(e: VulkanEngine, inputs: seq<FrameInput>, c0: nat, m: nat)
    requires Valid(e) && InputsValid(e, inputs)
    requires c0 < e.framesInFlight && m < e.framesInFlight && m + |inputs| > e.framesInFlight
    requires e.currentFrame == Advance(c0, m, e.framesInFlight)
    requires forall i :: 0 <= i < m ==> e.fenceStates[Advance(c0, i, e.framesInFlight)] == Pending
    requires forall k :: 0 <= k < |inputs| ==> inputs[k].completed == [] && !inputs[k].quit
    requires Step(e, inputs[0]).Success?
    ensures Run(e, inputs).Failure?
    ensures (forall k :: 0 <= k < |inputs| ==> inputs[k].acquire.Acquired?) && NullFree(e.renderables) ==>
              Run(e, inputs) == Failure(FenceTimeout)
    decreases e.framesInFlight - m, 0
  {
    var n := e.framesInFlight;
    var next := Step(e, inputs[0]).value;
    assert InputValid(e, inputs[0]) && inputs[0].completed == [];
    StepExtendsPendingRun(e, inputs[0], c0, m);
    RunUnfold(e, inputs);
    var rest := inputs[1..];
    assert forall k :: 0 <= k < |rest| ==> rest[k] == inputs[k + 1];
    StalledRingTimesOut(next, rest, c0, m + 1);
  }

  /** Without GPU progress, a successful iteration adds the slot it drew to the pending ones. */
  lemma StepExtendsPendingRun(e: VulkanEngine, input: FrameInput, c0: nat, m: nat)
    requires Valid(e) && InputValid(e, input) && input.completed == [] && Step(e, input).Success?
    requires c0 < e.framesInFlight && m < e.framesInFlight
    requires e.currentFrame == Advance(c0, m, e.framesInFlight)
    requires forall i :: 0 <= i < m ==> e.fenceStates[Advance(c0, i, e.framesInFlight)] == Pending
    ensures Step(e, input).value.currentFrame == Advance(c0, m + 1, e.framesInFlight)
    ensures forall i :: 0 <= i < m + 1 ==> Step(e, input).value.fenceStates[Advance(c0, i, e.framesInFlight)] == Pending
  {
    var n := e.framesInFlight;
    var next := Step(e, input).value;
    AdvanceLast(c0, m, n);
    forall i | 0 <= i < m + 1
      ensures next.fenceStates[Advance(c0, i, n)] == Pending
    {
      if i < m {
        AdvanceReturnsAfterFullCircle(c0, i, n);
      }
    }
  }

  // ---------------------------------------------------------------------------
  // Shutdown

  /**
   * What shutting down does: the engine left behind, the handles destroyed in
   * order, and the frame slots whose GPU work was still pending when the
   * deletion queue was flushed.
   */
  datatype Shutdown = Shutdown(next: VulkanEngine, destroyed: seq<Handle>, pendingAtFlush: set<nat>)

  /** The objects of `init_vulkan`, destroyed after the deletion queue. */
  function DeviceTeardown(): seq<Handle> {
    [Obj(Allocator, 0), Obj(Device, 0), Obj(Surface, 0), Obj(DebugMessenger, 0), Obj(Instance, 0), Obj(Window, 0)]
  }

  function PendingSlots(e: VulkanEngine): set<nat> {
    set i | 0 <= i < |e.fenceStates| && e.fenceStates[i] == Pending
  }

  /** `cleanup` as written: waits on the current slot's fence only, then flushes. */
  function CleanupAsWritten(e: VulkanEngine): (r: Shutdown)
    requires e.isInitialized ==> Valid(e)
    ensures !e.isInitialized ==> r.next == e && r.destroyed == [] && r.pendingAtFlush == {}
    ensures e.isInitialized ==>
              && r.destroyed == FlushOrder(e.deletionQueue) + DeviceTeardown()
              && r.next.deletionQueue == []
              && r.pendingAtFlush == PendingSlots(e) - {e.currentFrame}
  {
    if !e.isInitialized then Shutdown(e, [], {})
    else
      var waited := e.(fenceStates := e.fenceStates[e.currentFrame := Signaled]);
      Shutdown(waited.(deletionQueue := []), FlushOrder(e.deletionQueue) + DeviceTeardown(), PendingSlots(waited))
  }

  /** `cleanup` waiting on every slot's fence before the flush. */
  function Cleanup(e: VulkanEngine): (r: Shutdown)
    requires e.isInitialized ==> Valid(e)
    ensures !e.isInitialized ==> r.next == e && r.destroyed == []
    ensures e.isInitialized ==> r.destroyed == FlushOrder(e.deletionQueue) + DeviceTeardown() && r.next.deletionQueue == []
    ensures r.pendingAtFlush == {}
  {
    if !e.isInitialized then Shutdown(e, [], {})
    else
      var waited := e.(fenceStates := seq(|e.fenceStates|, i => Signaled));
      Shutdown(waited.(deletionQueue := []), FlushOrder(e.deletionQueue) + DeviceTeardown(), PendingSlots(waited))
  }

  /**
   * The as-written cleanup waits on the slot `draw` will use next, which is the
   * oldest one in flight. With two or more slots, the slot that was just
   * submitted is still pending when the deletion queue is flushed, so its
   * command buffer, semaphores and fence may be destroyed while the GPU uses
   * them. The corrected cleanup leaves nothing pending.
   */
  lemma CleanupAfterDrawSkipsSubmittedSlot(e: VulkanEngine, acquire: AcquireOutcome)
    requires Valid(e) && e.isInitialized && e.framesInFlight >= 2
    requires AcquireValid(e, acquire) && Draw(e, acquire).Success?
    ensures e.currentFrame in CleanupAsWritten(Draw(e, acquire).value.next).pendingAtFlush
    ensures Cleanup(Draw(e, acquire).value.next).pendingAtFlush == {}
  {
    var next := Draw(e, acquire).value.next;
    assert next.currentFrame != e.currentFrame;
    assert next.fenceStates[e.currentFrame] == Pending;
  }

  /**
   * The teardown records `init` registers, in registration order, when it
   * creates n frame slots: swapchain, depth image, command pool, render pass,
   * one per framebuffer (with its swapchain image view), the sync objects, the
   * pipeline with its layout, and the vertex buffer with its allocation.
   */
  function InitTeardowns(n: nat, env: InitEnv): seq<Teardown> {
    GpuTeardowns(n, env.swapchainImageCount) + AssetTeardowns(env.pipelineBuilt)
  }

  function GpuTeardowns(n: nat, imageCount: nat): seq<Teardown> {
    [DestroySwapchain(Obj(Swapchain, 0)),
     DestroyDepthImage(Obj(DepthImageView, 0), Obj(DepthImage, 0)),
     DestroyCommandPool(Obj(CommandPool, 0)),
     DestroyRenderPass(Obj(RenderPass, 0))]
    + seq(imageCount, i requires 0 <= i => DestroyFramebuffer(Obj(Framebuffer, i), Obj(SwapchainImageView, i)))
    + [DestroySyncObjects(seq(n, i requires 0 <= i => FrameSync(Obj(Fence, i), Obj(PresentSemaphore, i), Obj(RenderSemaphore, i))))]
  }

  function AssetTeardowns(pipelineBuilt: bool): seq<Teardown> {
    [DestroyPipeline(if pipelineBuilt then Obj(Pipeline, 0) else Null, Obj(PipelineLayout, 0)),
     DestroyBuffer(AllocatedBuffer(Obj(VertexBuffer, 0), Obj(BufferAllocation, 0)))]
  }

  lemma GpuObjectsRegisterTeardown(e: VulkanEngine, imageCount: nat)
    ensures InitGpuObjects(e, imageCount).deletionQueue == e.deletionQueue + GpuTeardowns(e.framesInFlight, imageCount)
  {
    var n := e.framesInFlight;
    var e3 := InitDefaultRenderpass(InitCommands(InitSwapchain(e, imageCount)));
    var e4 := InitFramebuffers(e3);
    FirstStagesRegisterTeardown(e, imageCount);
    FramebufferStageRegistersTeardown(e3, n, imageCount);
    SyncStageRegistersTeardown(e4, n, imageCount);
    GpuTeardownsSplit(n, imageCount, e.deletionQueue, e3.deletionQueue, e4.deletionQueue, InitGpuObjects(e, imageCount).deletionQueue);
  }

  lemma GpuTeardownsSplit(n: nat, imageCount: nat, q0: seq<Teardown>, q3: seq<Teardown>, q4: seq<Teardown>, q5: seq<Teardown>)
    requires q3 == q0 + GpuTeardowns(n, imageCount)[..4]
    requires q4 == q3 + GpuTeardowns(n, imageCount)[4..4 + imageCount]
    requires q5 == q4 + [GpuTeardowns(n, imageCount)[4 + imageCount]]
    ensures q5 == q0 + GpuTeardowns(n, imageCount)
  {
    var t := GpuTeardowns(n, imageCount);
    assert t == t[..4] + t[4..4 + imageCount] + [t[4 + imageCount]];
  }

  lemma FramebufferStageRegistersTeardown(e: VulkanEngine, n: nat, imageCount: nat)
    requires e.swapchainImageViews == seq(imageCount, i requires 0 <= i => Obj(SwapchainImageView, i))
    ensures InitFramebuffers(e).deletionQueue == e.deletionQueue + GpuTeardowns(n, imageCount)[4..4 + imageCount]
  {
    var r := InitFramebuffers(e);
    var t := GpuTeardowns(n, imageCount);
    forall k | |e.deletionQueue| <= k < |r.deletionQueue|
      ensures r.deletionQueue[k] == (e.deletionQueue + t[4..4 + imageCount])[k]
    {
      var i := k - |e.deletionQueue|;
      assert r.deletionQueue[|e.deletionQueue| + i] == t[4 + i];
    }
  }

  lemma SyncStageRegistersTeardown(e: VulkanEngine, n: nat, imageCount: nat)
    requires e.framesInFlight == n
    ensures InitSyncStructures(e).deletionQueue == e.deletionQueue + [GpuTeardowns(n, imageCount)[4 + imageCount]]
  {
    var r := InitSyncStructures(e);
    var frames := r.deletionQueue[|e.deletionQueue|].frames;
    forall i | 0 <= i < n
      ensures frames[i] == FrameSync(Obj(Fence, i), Obj(PresentSemaphore, i), Obj(RenderSemaphore, i))
    {
    }
    assert frames == GpuTeardowns(n, imageCount)[4 + imageCount].frames;
  }

  /** The swapchain, command and render-pass stages register the first four records of `GpuTeardowns`. */
  lemma FirstStagesRegisterTeardown(e: VulkanEngine, imageCount: nat)
    ensures InitDefaultRenderpass(InitCommands(InitSwapchain(e, imageCount))).deletionQueue
              == e.deletionQueue + GpuTeardowns(e.framesInFlight, imageCount)[..4]
    ensures InitDefaultRenderpass(InitCommands(InitSwapchain(e, imageCount))).swapchainImageViews
              == seq(imageCount, i requires 0 <= i => Obj(SwapchainImageView, i))
  {
    var t := GpuTeardowns(e.framesInFlight, imageCount);
    assert t[..4] == [DestroySwapchain(Obj(Swapchain, 0)), DestroyDepthImage(Obj(DepthImageView, 0), Obj(DepthImage, 0)),
                      DestroyCommandPool(Obj(CommandPool, 0)), DestroyRenderPass(Obj(RenderPass, 0))];
  }

  lemma AssetsRegisterTeardown(e: VulkanEngine, env: InitEnv)
    requires PointersValid(e.renderables, e.meshes, e.materials)
    ensures InitAssets(e, env).deletionQueue == e.deletionQueue + AssetTeardowns(env.pipelineBuilt)
  {
    var e6 := InitPipelines(e, env.pipelineBuilt);
    var e7 := LoadMeshes(e6, env.objVertices, env.objIndices);
    assert InitAssets(e, env).deletionQueue == e7.deletionQueue;
  }

  /** `init` appends exactly the records of `InitTeardowns` to the deletion queue. */
  lemma InitRegistersTeardown(e: VulkanEngine, env: InitEnv)
    requires e.framesInFlight >= 1 && e.currentFrame < e.framesInFlight
    requires PointersValid(e.renderables, e.meshes, e.materials)
    ensures Init(e, env).deletionQueue == e.deletionQueue + InitTeardowns(e.framesInFlight, env)
  {
    var gpu := InitGpuObjects(e, env.swapchainImageCount);
    GpuObjectsRegisterTeardown(e, env.swapchainImageCount);
    AssetsRegisterTeardown(gpu, env);
    assert Init(e, env).deletionQueue == InitAssets(gpu, env).deletionQueue;
    assert e.deletionQueue + GpuTeardowns(e.framesInFlight, env.swapchainImageCount) + AssetTeardowns(env.pipelineBuilt)
        == e.deletionQueue + InitTeardowns(e.framesInFlight, env);
  }

  /** Rank of the a-th record `init` registers, when the swapchain has `imageCount` images. */
  function InitRank(a: nat, imageCount: nat): Rank {
    if a < 4 then Rank(a + 1, 0)
    else if a < 4 + imageCount then Rank(5, a - 4)
    else Rank(a - imageCount + 2, 0)
  }

  /** The records `init` registers are well typed and registered in increasing rank. */
  lemma InitTeardownsRanked(n: nat, env: InitEnv)
    ensures forall a :: 0 <= a < |InitTeardowns(n, env)| ==> WellTyped(InitTeardowns(n, env)[a])
    ensures RanksIncrease(InitTeardowns(n, env))
  {
    var t := InitTeardowns(n, env);
    var k := env.swapchainImageCount;
    forall a | 0 <= a < |t|
      ensures WellTyped(t[a]) && RecordRank(t[a]) == InitRank(a, k)
    {
      if 4 <= a < 4 + k {
        assert t[a] == DestroyFramebuffer(Obj(Framebuffer, a - 4), Obj(SwapchainImageView, a - 4));
      }
    }
  }

  /**
   * After `init`, cleanup destroys every object before anything it
   * refers to: the deletion queue last-registered-first, then the allocator,
   * device, surface, debug messenger, instance and window.
   */
  lemma InitThenCleanupRespectsDependencies(n: nat, env: InitEnv)
    requires n >= 1
    ensures DependentsFirst(Cleanup(Init(NewEngine(n), env)).destroyed)
    ensures CleanupAsWritten(Init(NewEngine(n), env)).destroyed == Cleanup(Init(NewEngine(n), env)).destroyed
  {
    InitRegistersTeardown(NewEngine(n), env);
    InitTeardownsRanked(n, env);
    assert Init(NewEngine(n), env).deletionQueue == InitTeardowns(n, env);
    RankedQueueFlushesBeforeDevice(InitTeardowns(n, env));
  }

  /**
   * A queue of well-typed records registered in increasing rank, flushed and
   * followed by the device-level objects, destroys every object before
   * anything it refers to.
   */
  lemma RankedQueueFlushesBeforeDevice(q: seq<Teardown>)
    requires forall a :: 0 <= a < |q| ==> WellTyped(q[a])
    requires RanksIncrease(q)
    ensures DependentsFirst(FlushOrder(q) + DeviceTeardown())
  {
    RankedQueueFlushesSafely(q);
    var flushed := FlushOrder(q);
    FlushedObjectsRanked(q);
    DeviceTeardownDependentsFirst();
    forall x, y | x in flushed && y in DeviceTeardown()
      ensures !Uses(y, x)
    {
      DeviceObjectsUseOnlyUnranked(y, x);
    }
    AppendDependentsFirst(flushed, DeviceTeardown());
  }

  /** The allocator goes before the device, the device and surface before the instance, the surface before the window. */
  lemma DeviceTeardownDependentsFirst()
    ensures DependentsFirst(DeviceTeardown())
  {
    var order := DeviceTeardown();
    forall i, j | 0 <= i < j < |order|
      ensures !Uses(order[j], order[i])
    {
      assert order[j].kind != Allocator;
    }
  }

  /** Everything a flush destroys was created by an initialisation stage (rank stage 1 or later). */
  lemma FlushedObjectsRanked(q: seq<Teardown>)
    requires forall a :: 0 <= a < |q| ==> WellTyped(q[a])
    ensures forall h :: h in FlushOrder(q) && h.Obj? ==> RankOf(h).stage >= 1
  {
    forall h | h in FlushOrder(q) && h.Obj?
      ensures RankOf(h).stage >= 1
    {
      var a :| 0 <= a < |q| && h in Actions(q[a]);
      WellTypedRecordIsRanked(q[a]);
    }
  }

  /** The device-level objects refer only to each other, never to anything in the deletion queue. */
  lemma DeviceObjectsUseOnlyUnranked(y: Handle, x: Handle)
    requires y in DeviceTeardown()
    ensures Uses(y, x) ==> RankOf(x).stage == 0
  {
  }
}

=== FILE: handles.dfy ===
/**
 * Opaque GPU and window-system handles.
 *
 * A handle is modelled by its identity only: the kind of object it names and
 * an index that tells apart several objects of one kind (frame slot i, swapchain
 * image i, ...). `Null` stands for VK_NULL_HANDLE / nullptr.
 */
module Handles {

  datatype Kind =
    | Window | Instance | DebugMessenger | Surface | Device | Allocator
    | Swapchain | SwapchainImageView | DepthImage | DepthImageView
    | CommandPool | CommandBuffer | RenderPass | Framebuffer
    | Fence | PresentSemaphore | RenderSemaphore
    | PipelineLayout | Pipeline | VertexBuffer | BufferAllocation

  datatype Handle = Null | Obj(kind: Kind, id: nat)
}

=== FILE: mesh.dfy ===
/**
 * Vertex and mesh records of src/vk_mesh.h.
 *
 * glm vectors hold IEEE-754 single-precision floats; a component is modelled by
 * its 32-bit pattern so that C++ `==` on floats (NaN equals nothing, +0 equals
 * -0) can be written out exactly.
 */
module Meshes {
  import opened Handles

  type Float = bv32

  predicate IsNaN(x: Float) {
    x & 0x7F80_0000 == 0x7F80_0000 && x & 0x007F_FFFF != 0
  }

  predicate IsZero(x: Float) {
    x & 0x7FFF_FFFF == 0
  }

  /** C++ `==` on two floats. */
  predicate FloatEq(a: Float, b: Float) {
    !IsNaN(a) && !IsNaN(b) && (a == b || (IsZero(a) && IsZero(b)))
  }

  datatype Vec2 = Vec2(x: Float, y: Float)
  datatype Vec3 = Vec3(x: Float, y: Float, z: Float)

  /** glm `==` on vectors: component-wise float equality. */
  predicate Vec2Eq(a: Vec2, b: Vec2) {
    FloatEq(a.x, b.x) && FloatEq(a.y, b.y)
  }

  predicate Vec3Eq(a: Vec3, b: Vec3) {
    FloatEq(a.x, b.x) && FloatEq(a.y, b.y) && FloatEq(a.z, b.z)
  }

  /** Three 3-component vectors and one 2-component vector, in declaration order. */
  datatype Vertex = Vertex(position: Vec3, normal: Vec3, color: Vec3, texCoord: Vec2)

  /** Size in bytes of one packed vertex: eleven 4-byte floats, no padding. */
  const VertexSize: nat := 44

  /** `Vertex::operator==`: all four fields compare equal. */
  predicate VertexEq(a: Vertex, b: Vertex) {
    && Vec3Eq(a.position, b.position)
    && Vec3Eq(a.normal, b.normal)
    && Vec3Eq(a.color, b.color)
    && Vec2Eq(a.texCoord, b.texCoord)
  }

  /** A 64-bit `size_t` hash value. */
  type Hash = bv64

  /**
   * `std::hash<Vertex>`: three component hashes combined with shifts and xor.
   * The per-vector hashes come from glm and are parameters here.
   */
  function VertexHash(hash3: Vec3 -> Hash, hash2: Vec2 -> Hash, v: Vertex): Hash {
    Combine(hash3(v.position), hash3(v.color), hash2(v.texCoord))
  }

  /** The shift-and-xor mix of the position, color and texture-coordinate hashes. */
  function Combine(position: Hash, color: Hash, texCoord: Hash): Hash {
    ((position ^ (color << 1)) >> 1) ^ (texCoord << 1)
  }

  /** The condition under which a vector hash is usable with `==`: equal vectors hash alike. */
  ghost predicate Hash3RespectsEq(hash3: Vec3 -> Hash) {
    forall a, b :: Vec3Eq(a, b) ==> hash3(a) == hash3(b)
  }

  ghost predicate Hash2RespectsEq(hash2: Vec2 -> Hash) {
    forall a, b :: Vec2Eq(a, b) ==> hash2(a) == hash2(b)
  }

  /** The vertex hash never reads the normal. */
  lemma HashIgnoresNormal(hash3: Vec3 -> Hash, hash2: Vec2 -> Hash, v: Vertex, n: Vec3)
    ensures VertexHash(hash3, hash2, v.(normal := n)) == VertexHash(hash3, hash2, v)
  {
  }

  /** Two vertices that differ only in their normals hash alike but are not equal. */
  lemma HashIsCoarserThanEq(hash3: Vec3 -> Hash, hash2: Vec2 -> Hash, v: Vertex, n: Vec3)
    requires !Vec3Eq(v.normal, n)
    ensures VertexHash(hash3, hash2, v.(normal := n)) == VertexHash(hash3, hash2, v)
    ensures !VertexEq(v, v.(normal := n))
  {
    HashIgnoresNormal(hash3, hash2, v, n);
    assert v.(normal := n).normal == n;
  }

  /** Equal vertices hash alike, because the hash reads only fields that `==` compares. */
  lemma EqualVerticesHashEqual(hash3: Vec3 -> Hash, hash2: Vec2 -> Hash, a: Vertex, b: Vertex)
    requires Hash3RespectsEq(hash3) && Hash2RespectsEq(hash2)
    requires VertexEq(a, b)
    ensures VertexHash(hash3, hash2, a) == VertexHash(hash3, hash2, b)
  {
  }

  predicate NoNaN3(v: Vec3) {
    !IsNaN(v.x) && !IsNaN(v.y) && !IsNaN(v.z)
  }

  predicate NoNaN(v: Vertex) {
    NoNaN3(v.position) && NoNaN3(v.normal) && NoNaN3(v.color) && !IsNaN(v.texCoord.x) && !IsNaN(v.texCoord.y)
  }

  /** `==` is reflexive exactly on vertices without NaN components. */
  lemma VertexEqReflexiveIffNoNaN(v: Vertex)
    ensures VertexEq(v, v) <==> NoNaN(v)
  {
  }

  /** `==` is symmetric. */
  lemma VertexEqSymmetric(a: Vertex, b: Vertex)
    ensures VertexEq(a, b) <==> VertexEq(b, a)
  {
  }

  /** A buffer handle together with the allocator's record of its memory. */
  datatype AllocatedBuffer = AllocatedBuffer(buffer: Handle, allocation: Handle)

  /** A vertex list, an index list, one vertex buffer and one index buffer. */
  datatype Mesh = Mesh(
    vertices: seq<Vertex>,
    indices: seq<bv32>,
    vertexBuffer: AllocatedBuffer,
    indexBuffer: AllocatedBuffer)

  /** A mesh as the OBJ loader leaves it: geometry filled in, no GPU buffers yet. */
  function LoadedMesh(vertices: seq<Vertex>, indices: seq<bv32>): Mesh {
    Mesh(vertices, indices, AllocatedBuffer(Null, Null), AllocatedBuffer(Null, Null))
  }
}

=== FILE: recording.dfy ===
/**
 * Command recording for the frame's render objects (`draw_objects`).
 *
 * Only the command stream is modelled: matrix contents are left abstract, so a
 * push-constant command records just the layout it is pushed through.
 */
module Recording {
  import opened Wrappers
  import opened Handles
  import opened Meshes
  import opened Registry

  /** A renderable: pointers to its mesh and to its material. */
  datatype RenderObject = RenderObject(mesh: Ptr, material: Ptr)

  datatype Cmd =
    | BindPipeline(pipeline: Handle)
    | PushConstants(layout: Handle)
    | BindVertexBuffer(buffer: Handle)
    | Draw(vertexCount: nat)

  const U32: nat := 0x1_0000_0000

  /** vkCmdDraw takes a 32-bit vertex count; the vector length is truncated to it. */
  function VertexCount(m: Mesh): nat {
    |m.vertices| % U32
  }

  /** Every non-null pointer of the objects names a registry entry. */
  predicate PointersValid(objs: seq<RenderObject>, meshes: map<string, Mesh>, materials: map<string, Material>) {
    forall i :: 0 <= i < |objs| ==>
      && (objs[i].mesh.At? ==> objs[i].mesh.key in meshes)
      && (objs[i].material.At? ==> objs[i].material.key in materials)
  }

  predicate NonNull(o: RenderObject) {
    o.mesh.At? && o.material.At?
  }

  predicate NullFree(objs: seq<RenderObject>) {
    forall i :: 0 <= i < |objs| ==> NonNull(objs[i])
  }

  /**
   * The recording loop from object `i` on, with the mesh and material bound
   * last. A null mesh or material is dereferenced before the object's draw is
   * issued, so the process crashes there: the failure carries that object's index.
   */
  function RecordFrom(objs: seq<RenderObject>, i: nat, lastMesh: Ptr, lastMaterial: Ptr,
                      meshes: map<string, Mesh>, materials: map<string, Material>): (r: Result<seq<Cmd>, nat>)
    requires i <= |objs| && PointersValid(objs, meshes, materials)
    ensures r.Failure? <==> exists j :: i <= j < |objs| && !NonNull(objs[j])
    ensures r.Failure? ==> i <= r.error < |objs| && !NonNull(objs[r.error])
                           && forall j :: i <= j < r.error ==> NonNull(objs[j])
    decreases |objs| - i
  {
    if i == |objs| then Success([])
    else
      var o := objs[i];
      if !NonNull(o) then Failure(i)
      else
        var material := Deref(materials, o.material);
        var mesh := Deref(meshes, o.mesh);
        var bindPipeline := if o.material != lastMaterial then [BindPipeline(material.pipeline)] else [];
        var bindMesh := if o.mesh != lastMesh then [BindVertexBuffer(mesh.vertexBuffer.buffer)] else [];
        match RecordFrom(objs, i + 1, o.mesh, o.material, meshes, materials)
        case Failure(j) => Failure(j)
        case Success(rest) =>
          Success(bindPipeline + [PushConstants(material.pipelineLayout)] + bindMesh + [Draw(VertexCount(mesh))] + rest)
  }

  /** `draw_objects`: nothing is bound when recording starts. */
  function RecordObjects(objs: seq<RenderObject>, meshes: map<string, Mesh>, materials: map<string, Material>)
    : (r: Result<seq<Cmd>, nat>)
    requires PointersValid(objs, meshes, materials)
    ensures r.Success? <==> NullFree(objs)
    ensures r.Failure? ==> r.error < |objs| && !NonNull(objs[r.error]) && NullFree(objs[..r.error])
  {
    var r := RecordFrom(objs, 0, NullPtr, NullPtr, meshes, materials);
    if r.Failure? then
      assert forall j :: 0 <= j < r.error ==> objs[..r.error][j] == objs[j];
      r
    else r
  }

  // ---------------------------------------------------------------------------
  // Reference definition: the commands of each object, decided from its
  // neighbour in the array instead of from loop state.

  function MaterialsOf(objs: seq<RenderObject>): (s: seq<Ptr>)
    ensures |s| == |objs| && forall k :: 0 <= k < |objs| ==> s[k] == objs[k].material
  {
    seq(|objs|, k requires 0 <= k < |objs| => objs[k].material)
  }

  function MeshesOf(objs: seq<RenderObject>): (s: seq<Ptr>)
    ensures |s| == |objs| && forall k :: 0 <= k < |objs| ==> s[k] == objs[k].mesh
  {
    seq(|objs|, k requires 0 <= k < |objs| => objs[k].mesh)
  }

  /** Position i begins a maximal run of equal elements. */
  predicate StartsRun<T(==)>(s: seq<T>, i: nat)
    requires i < |s|
  {
    i == 0 || s[i] != s[i - 1]
  }

  /** The commands object i contributes: binds only where a run begins, then one push and one draw. */
  function ObjectCommands(objs: seq<RenderObject>, i: nat, meshes: map<string, Mesh>, materials: map<string, Material>)
    : seq<Cmd>
    requires i < |objs| && NullFree(objs) && PointersValid(objs, meshes, materials)
  {
    ObjectGroup(StartsRun(MaterialsOf(objs), i), Deref(materials, objs[i].material),
                StartsRun(MeshesOf(objs), i), Deref(meshes, objs[i].mesh))
  }

  /** The commands for one object: optional pipeline bind, push constants, optional vertex-buffer bind, draw. */
  function ObjectGroup(bindPipeline: bool, material: Material, bindMesh: bool, mesh: Mesh): seq<Cmd> {
    (if bindPipeline then [BindPipeline(material.pipeline)] else [])
    + [PushConstants(material.pipelineLayout)]
    + (if bindMesh then [BindVertexBuffer(mesh.vertexBuffer.buffer)] else [])
    + [Draw(VertexCount(mesh))]
  }

  function ExpectedFrom(objs: seq<RenderObject>, i: nat, meshes: map<string, Mesh>, materials: map<string, Material>)
    : seq<Cmd>
    requires i <= |objs| && NullFree(objs) && PointersValid(objs, meshes, materials)
    decreases |objs| - i
  {
    if i == |objs| then [] else ObjectCommands(objs, i, meshes, materials) + ExpectedFrom(objs, i + 1, meshes, materials)
  }

  /** The pointer the loop holds as "last bound" when it reaches object i. */
  function LastBound(s: seq<Ptr>, i: nat): Ptr
    requires i <= |s|
  {
    if i == 0 then NullPtr else s[i - 1]
  }

  lemma {:induction false} RecordFromMatchesExpected(objs: seq<RenderObject>, i: nat,
                                                     meshes: map<string, Mesh>, materials: map<string, Material>)
    requires i <= |objs| && NullFree(objs) && PointersValid(objs, meshes, materials)
    ensures RecordFrom(objs, i, LastBound(MeshesOf(objs), i), LastBound(MaterialsOf(objs), i), meshes, materials)
            == Success(ExpectedFrom(objs, i, meshes, materials))
    decreases |objs| - i
  {
    if i < |objs| {
      RecordFromMatchesExpected(objs, i + 1, meshes, materials);
      assert NonNull(objs[i]);
    }
  }

  /**
   * The loop binds a pipeline at object i exactly when i is the first object or
   * its material differs from object i-1's, and likewise a vertex buffer for meshes.
   */
  lemma RecordMatchesReference(objs: seq<RenderObject>, meshes: map<string, Mesh>, materials: map<string, Material>)
    requires NullFree(objs) && PointersValid(objs, meshes, materials)
    ensures RecordObjects(objs, meshes, materials) == Success(ExpectedFrom(objs, 0, meshes, materials))
  {
    RecordFromMatchesExpected(objs, 0, meshes, materials);
  }

  // ---------------------------------------------------------------------------
  // Counting commands.

  datatype CmdKind = BindPipelineKind | PushConstantsKind | BindVertexBufferKind | DrawKind

  function KindOf(c: Cmd): CmdKind {
    match c
    case BindPipeline(_) => BindPipelineKind
    case PushConstants(_) => PushConstantsKind
    case BindVertexBuffer(_) => BindVertexBufferKind
    case Draw(_) => DrawKind
  }

  function Count(cmds: seq<Cmd>, k: CmdKind): nat {
    if |cmds| == 0 then 0 else (if KindOf(cmds[0]) == k then 1 else 0) + Count(cmds[1..], k)
  }

  /** The vertex counts of the draw commands, in recording order. */
  function DrawCounts(cmds: seq<Cmd>): seq<nat> {
    if |cmds| == 0 then [] else (if cmds[0].Draw? then [cmds[0].vertexCount] else []) + DrawCounts(cmds[1..])
  }

  lemma {:induction false} CountAppend(a: seq<Cmd>, b: seq<Cmd>, k: CmdKind)
    ensures Count(a + b, k) == Count(a, k) + Count(b, k)
    ensures DrawCounts(a + b) == DrawCounts(a) + DrawCounts(b)
  {
    if |a| > 0 {
      assert (a + b)[1..] == a[1..] + b;
      CountAppend(a[1..], b, k);
    } else {
      assert a + b == b;
    }
  }

  lemma CountSingle(c: Cmd, k: CmdKind)
    ensures Count([c], k) == (if KindOf(c) == k then 1 else 0)
    ensures DrawCounts([c]) == (if c.Draw? then [c.vertexCount] else [])
  {
    assert [c][1..] == [];
  }

  /** Number of maximal runs of equal consecutive elements. */
  function Runs<T(==)>(s: seq<T>): nat
    decreases |s|
  {
    if |s| <= 1 then |s| else (if s[0] == s[1] then 0 else 1) + Runs(s[1..])
  }

  /** Number of positions from i on that begin a run. */
  function RunStartsFrom<T(==)>(s: seq<T>, i: nat): nat
    requires i <= |s|
    decreases |s| - i
  {
    if i == |s| then 0 else (if StartsRun(s, i) then 1 else 0) + RunStartsFrom(s, i + 1)
  }

  lemma {:induction false} RunStartsFromCountsRuns<T>(s: seq<T>, i: nat)
    requires i < |s|
    ensures RunStartsFrom(s, i) + (if StartsRun(s, i) then 0 else 1) == Runs(s[i..])
    decreases |s| - i
  {
    if i + 1 < |s| {
      RunStartsFromCountsRuns(s, i + 1);
      assert s[i..][1..] == s[i + 1..];
    }
  }

  /** Counting run starts over the whole sequence counts its maximal runs. */
  lemma RunStartsAreRuns<T>(s: seq<T>)
    ensures RunStartsFrom(s, 0) == Runs(s)
  {
    if |s| > 0 {
      RunStartsFromCountsRuns(s, 0);
      assert s[0..] == s;
    }
  }

  function VertexCountsFrom(objs: seq<RenderObject>, i: nat, meshes: map<string, Mesh>, materials: map<string, Material>)
    : (r: seq<nat>)
    requires i <= |objs| && NullFree(objs) && PointersValid(objs, meshes, materials)
    decreases |objs| - i
  {
    if i == |objs| then [] else [VertexCount(Deref(meshes, objs[i].mesh))] + VertexCountsFrom(objs, i + 1, meshes, materials)
  }

  /** What one object's commands contribute to each count. */
  lemma GroupCounts(bindPipeline: bool, material: Material, bindMesh: bool, mesh: Mesh)
    ensures var cmds := ObjectGroup(bindPipeline, material, bindMesh, mesh);
            && Count(cmds, BindPipelineKind) == (if bindPipeline then 1 else 0)
            && Count(cmds, BindVertexBufferKind) == (if bindMesh then 1 else 0)
            && Count(cmds, PushConstantsKind) == 1
            && Count(cmds, DrawKind) == 1
            && DrawCounts(cmds) == [VertexCount(mesh)]
  {
    var bp: seq<Cmd> := if bindPipeline then [BindPipeline(material.pipeline)] else [];
    var push: seq<Cmd> := [PushConstants(material.pipelineLayout)];
    var bm: seq<Cmd> := if bindMesh then [BindVertexBuffer(mesh.vertexBuffer.buffer)] else [];
    var draw: seq<Cmd> := [Draw(VertexCount(mesh))];
    assert ObjectGroup(bindPipeline, material, bindMesh, mesh) == bp + push + bm + draw;
    forall k: CmdKind
      ensures Count(bp + push + bm + draw, k) == Count(bp, k) + Count(push, k) + Count(bm, k) + Count(draw, k)
      ensures DrawCounts(bp + push + bm + draw) == DrawCounts(bp) + DrawCounts(push) + DrawCounts(bm) + DrawCounts(draw)
    {
      CountAppend(bp, push, k);
      CountAppend(bp + push, bm, k);
      CountAppend(bp + push + bm, draw, k);
    }
    forall k: CmdKind
      ensures Count(bp, k) == (if k == BindPipelineKind && bindPipeline then 1 else 0)
      ensures Count(bm, k) == (if k == BindVertexBufferKind && bindMesh then 1 else 0)
      ensures Count(push, k) == (if k == PushConstantsKind then 1 else 0)
      ensures Count(draw, k) == (if k == DrawKind then 1 else 0)
    {
      CountSingle(BindPipeline(material.pipeline), k);
      CountSingle(PushConstants(material.pipelineLayout), k);
      CountSingle(BindVertexBuffer(mesh.vertexBuffer.buffer), k);
      CountSingle(Draw(VertexCount(mesh)), k);
    }
    CountSingle(BindPipeline(material.pipeline), DrawKind);
    CountSingle(BindVertexBuffer(mesh.vertexBuffer.buffer), DrawKind);
    CountSingle(PushConstants(material.pipelineLayout), DrawKind);
    CountSingle(Draw(VertexCount(mesh)), DrawKind);
  }

  /** From object i on, the reference recording's counts of each command kind and its draw sizes. */
  lemma ExpectedFromCounts(objs: seq<RenderObject>, i: nat, meshes: map<string, Mesh>, materials: map<string, Material>)
    requires i <= |objs| && NullFree(objs) && PointersValid(objs, meshes, materials)
    ensures var cmds := ExpectedFrom(objs, i, meshes, materials);
            && Count(cmds, BindPipelineKind) == RunStartsFrom(MaterialsOf(objs), i)
            && Count(cmds, BindVertexBufferKind) == RunStartsFrom(MeshesOf(objs), i)
            && Count(cmds, PushConstantsKind) == |objs| - i
            && Count(cmds, DrawKind) == |objs| - i
            && DrawCounts(cmds) == VertexCountsFrom(objs, i, meshes, materials)
  {
    ExpectedFromBindCounts(objs, i, meshes, materials);
    ExpectedFromDrawCounts(objs, i, meshes, materials);
  }

  /** Each pipeline or vertex-buffer bind of the reference marks the start of a run. */
  lemma {:induction false} ExpectedFromBindCounts(objs: seq<RenderObject>, i: nat,
                                                  meshes: map<string, Mesh>, materials: map<string, Material>)
    requires i <= |objs| && NullFree(objs) && PointersValid(objs, meshes, materials)
    ensures var cmds := ExpectedFrom(objs, i, meshes, materials);
            && Count(cmds, BindPipelineKind) == RunStartsFrom(MaterialsOf(objs), i)
            && Count(cmds, BindVertexBufferKind) == RunStartsFrom(MeshesOf(objs), i)
    decreases |objs| - i
  {
    if i < |objs| {
      ExpectedFromBindCounts(objs, i + 1, meshes, materials);
      var material, mesh := Deref(materials, objs[i].material), Deref(meshes, objs[i].mesh);
      var bindPipeline, bindMesh := StartsRun(MaterialsOf(objs), i), StartsRun(MeshesOf(objs), i);
      GroupCounts(bindPipeline, material, bindMesh, mesh);
      var head := ObjectGroup(bindPipeline, material, bindMesh, mesh);
      var rest := ExpectedFrom(objs, i + 1, meshes, materials);
      ExpectedFromUnfold(objs, i, meshes, materials);
      assert RunStartsFrom(MaterialsOf(objs), i) == (if bindPipeline then 1 else 0) + RunStartsFrom(MaterialsOf(objs), i + 1);
      assert RunStartsFrom(MeshesOf(objs), i) == (if bindMesh then 1 else 0) + RunStartsFrom(MeshesOf(objs), i + 1);
      CountAppend(head, rest, BindPipelineKind);
      CountAppend(head, rest, BindVertexBufferKind);
    }
  }

  /** The reference pushes and draws once per object, each draw sized to that object's mesh. */
  lemma {:induction false} ExpectedFromDrawCounts(objs: seq<RenderObject>, i: nat,
                                                  meshes: map<string, Mesh>, materials: map<string, Material>)
    requires i <= |objs| && NullFree(objs) && PointersValid(objs, meshes, materials)
    ensures var cmds := ExpectedFrom(objs, i, meshes, materials);
            && Count(cmds, PushConstantsKind) == |objs| - i
            && Count(cmds, DrawKind) == |objs| - i
            && DrawCounts(cmds) == VertexCountsFrom(objs, i, meshes, materials)
    decreases |objs| - i
  {
    if i < |objs| {
      ExpectedFromDrawCounts(objs, i + 1, meshes, materials);
      var material, mesh := Deref(materials, objs[i].material), Deref(meshes, objs[i].mesh);
      var bindPipeline, bindMesh := StartsRun(MaterialsOf(objs), i), StartsRun(MeshesOf(objs), i);
      GroupCounts(bindPipeline, material, bindMesh, mesh);
      var head := ObjectGroup(bindPipeline, material, bindMesh, mesh);
      var rest := ExpectedFrom(objs, i + 1, meshes, materials);
      ExpectedFromUnfold(objs, i, meshes, materials);
      CountAppend(head, rest, PushConstantsKind);
      CountAppend(head, rest, DrawKind);
      calc {
        DrawCounts(ExpectedFrom(objs, i, meshes, materials));
        DrawCounts(head + rest);
        DrawCounts(head) + DrawCounts(rest);
        [VertexCount(mesh)] + VertexCountsFrom(objs, i + 1, meshes, materials);
        VertexCountsFrom(objs, i, meshes, materials);
      }
    }
  }

  lemma ExpectedFromUnfold(objs: seq<RenderObject>, i: nat, meshes: map<string, Mesh>, materials: map<string, Material>)
    requires i < |objs| && NullFree(objs) && PointersValid(objs, meshes, materials)
    ensures ExpectedFrom(objs, i, meshes, materials)
            == ObjectGroup(StartsRun(MaterialsOf(objs), i), Deref(materials, objs[i].material),
                           StartsRun(MeshesOf(objs), i), Deref(meshes, objs[i].mesh))
               + ExpectedFrom(objs, i + 1, meshes, materials)
  {
  }

  /**
   * Bind elision: a recording of non-null objects binds as many pipelines as
   * there are maximal runs of equal materials and as many vertex buffers as
   * there are maximal runs of equal meshes. Every object gets exactly one push
   * constant and one draw, the draws in array order, each sized to its mesh.
   */
  lemma BindsCountRuns(objs: seq<RenderObject>, meshes: map<string, Mesh>, materials: map<string, Material>)
    requires NullFree(objs) && PointersValid(objs, meshes, materials)
    ensures RecordObjects(objs, meshes, materials).Success?
    ensures var cmds := RecordObjects(objs, meshes, materials).value;
            && Count(cmds, BindPipelineKind) == Runs(MaterialsOf(objs))
            && Count(cmds, BindVertexBufferKind) == Runs(MeshesOf(objs))
            && Count(cmds, PushConstantsKind) == |objs|
            && Count(cmds, DrawKind) == |objs|
            && DrawCounts(cmds) == VertexCountsFrom(objs, 0, meshes, materials)
  {
    RecordMatchesReference(objs, meshes, materials);
    ExpectedFromCounts(objs, 0, meshes, materials);
    RunStartsAreRuns(MaterialsOf(objs));
    RunStartsAreRuns(MeshesOf(objs));
  }

  /** The k-th draw of a recording is sized to the k-th object's mesh. */
  lemma {:induction false} VertexCountsInOrder(objs: seq<RenderObject>, i: nat,
                                               meshes: map<string, Mesh>, materials: map<string, Material>)
    requires i <= |objs| && NullFree(objs) && PointersValid(objs, meshes, materials)
    ensures var r := VertexCountsFrom(objs, i, meshes, materials);
            |r| == |objs| - i
            && forall k :: 0 <= k < |r| ==> r[k] == VertexCount(Deref(meshes, objs[i + k].mesh))
    decreases |objs| - i
  {
    if i < |objs| {
      VertexCountsInOrder(objs, i + 1, meshes, materials);
      var r := VertexCountsFrom(objs, i, meshes, materials);
      var rest := VertexCountsFrom(objs, i + 1, meshes, materials);
      assert r == [VertexCount(Deref(meshes, objs[i].mesh))] + rest;
      forall k | 0 <= k < |r|
        ensures r[k] == VertexCount(Deref(meshes, objs[i + k].mesh))
      {
        if k > 0 {
          assert r[k] == rest[k - 1];
        }
      }
    }
  }

  /** When every object shares one mesh and one material, exactly one of each bind is issued. */
  lemma SharedMeshAndMaterialBindOnce(objs: seq<RenderObject>, meshes: map<string, Mesh>, materials: map<string, Material>)
    requires |objs| > 0 && NullFree(objs) && PointersValid(objs, meshes, materials)
    requires forall k :: 0 <= k < |objs| ==> objs[k] == objs[0]
    ensures var cmds := RecordObjects(objs, meshes, materials).value;
            Count(cmds, BindPipelineKind) == 1 && Count(cmds, BindVertexBufferKind) == 1
  {
    BindsCountRuns(objs, meshes, materials);
    ConstantRuns(MaterialsOf(objs));
    ConstantRuns(MeshesOf(objs));
  }

  lemma {:induction false} ConstantRuns<T>(s: seq<T>)
    requires |s| > 0 && forall k :: 0 <= k < |s| ==> s[k] == s[0]
    ensures Runs(s) == 1
    decreases |s|
  {
    if |s| > 1 {
      ConstantRuns(s[1..]);
    }
  }
}

=== FILE: registry.dfy ===
/**
 * The engine's name-keyed registries of materials and meshes.
 *
 * The source hands out raw pointers into its hash maps. A pointer into a map
 * entry is identified by the entry's key (entries are never erased, and
 * assigning to an existing key keeps its node), so it is modelled as `At(key)`;
 * `NullPtr` is nullptr.
 */
module Registry {
  import opened Handles

  datatype Ptr = NullPtr | At(key: string)

  /** A named pipeline configuration: the pipeline and the layout it was built with. */
  datatype Material = Material(pipeline: Handle, pipelineLayout: Handle)

  /** `map.find(name)`: a pointer to the entry, or nullptr when the name is absent. */
  function Find<V>(registry: map<string, V>, name: string): (p: Ptr)
    ensures p.At? <==> name in registry
    ensures p.At? ==> p.key == name
  {
    if name in registry then At(name) else NullPtr
  }

  /** Dereferences a pointer that `Find` handed out. */
  function Deref<V>(registry: map<string, V>, p: Ptr): V
    requires p.At? && p.key in registry
  {
    registry[p.key]
  }

  /**
   * `create_material`: stores (pipeline, layout) under `name`, replacing any
   * previous entry, and returns a pointer to the stored entry.
   */
  function CreateMaterial(materials: map<string, Material>, pipeline: Handle, layout: Handle, name: string)
    : (r: (map<string, Material>, Ptr))
    ensures r.0.Keys == materials.Keys + {name}
    ensures r.1 == At(name) && Deref(r.0, r.1) == Material(pipeline, layout)
    ensures forall other :: other in materials && other != name ==> r.0[other] == materials[other]
  {
    (materials[name := Material(pipeline, layout)], At(name))
  }

  /** Looking a name up right after creating it yields the pair just stored. */
  lemma GetAfterCreate(materials: map<string, Material>, pipeline: Handle, layout: Handle, name: string)
    ensures var m := CreateMaterial(materials, pipeline, layout, name).0;
            Find(m, name) == At(name) && Deref(m, Find(m, name)) == Material(pipeline, layout)
  {
  }

  /** Creating a name twice keeps one entry, holding the second pair. */
  lemma CreateOverwrites(materials: map<string, Material>, p1: Handle, l1: Handle, p2: Handle, l2: Handle, name: string)
    ensures var once := CreateMaterial(materials, p1, l1, name).0;
            var twice := CreateMaterial(once, p2, l2, name).0;
            twice.Keys == once.Keys && twice[name] == Material(p2, l2)
  {
  }

  /** Creating one name leaves the lookup of every other name as it was. */
  lemma CreateKeepsOthers(materials: map<string, Material>, pipeline: Handle, layout: Handle, name: string, other: string)
    requires other != name
    ensures var m := CreateMaterial(materials, pipeline, layout, name).0;
            Find(m, other) == Find(materials, other)
            && (other in materials ==> Deref(m, Find(m, other)) == Deref(materials, Find(materials, other)))
  {
  }
}

=== FILE: shader.dfy ===
/**
 * Size bookkeeping of `load_shader_module`.
 *
 * The file system and the driver are parameters: the file either cannot be
 * opened or has a byte size, and module creation either succeeds or not.
 */
module Shader {
  import opened Wrappers

  datatype ShaderFile = Unopenable | Opened(size: nat)

  datatype ShaderError = OpenFailed | CreateFailed | Misaligned

  /**
   * What one load does with memory: the word buffer it allocates (in bytes),
   * the bytes it reads into that buffer, and the code size it hands to module creation.
   */
  datatype ShaderLoad = ShaderLoad(bufferBytes: nat, bytesRead: nat, codeSize: nat)

  const WordBytes: nat := 4

  /** The loader as written: the buffer holds size / 4 whole words, and the whole file is read into it. */
  function LoadShaderModule(file: ShaderFile, createSucceeds: bool): (r: Result<ShaderLoad, ShaderError>)
    ensures file.Unopenable? ==> r == Failure(OpenFailed)
    ensures file.Opened? && !createSucceeds ==> r == Failure(CreateFailed)
    ensures r.Success? <==> file.Opened? && createSucceeds
    ensures r.Success? ==>
              && r.value.codeSize % WordBytes == 0
              && r.value.codeSize <= file.size < r.value.codeSize + WordBytes
              && r.value.bytesRead == file.size
  {
    match file
    case Unopenable => Failure(OpenFailed)
    case Opened(size) =>
      var words := size / WordBytes;
      var load := ShaderLoad(words * WordBytes, size, words * WordBytes);
      if !createSucceeds then Failure(CreateFailed) else Success(load)
  }

  /** The code size is the largest multiple of four that fits in the file. */
  lemma CodeSizeRoundsDown(size: nat, createSucceeds: bool, m: nat)
    requires createSucceeds && m % WordBytes == 0 && m <= size
    ensures m <= LoadShaderModule(Opened(size), createSucceeds).value.codeSize
  {
  }

  /** A file whose size is not a whole number of words is read past the end of the buffer. */
  lemma ReadOverrunsBuffer(size: nat)
    requires size % WordBytes != 0
    ensures var r := LoadShaderModule(Opened(size), true);
            r.Success? && r.value.bytesRead > r.value.bufferBytes
  {
  }

  /** A five-byte file: one word of buffer, five bytes read into it. */
  lemma FiveByteFileOverruns()
    ensures LoadShaderModule(Opened(5), true) == Success(ShaderLoad(4, 5, 4))
  {
  }

  /** The loader with the size check the format calls for: unaligned files are rejected before any read. */
  function LoadShaderModuleChecked(file: ShaderFile, createSucceeds: bool): (r: Result<ShaderLoad, ShaderError>)
    ensures file.Unopenable? ==> r == Failure(OpenFailed)
    ensures r.Success? <==> file.Opened? && file.size % WordBytes == 0 && createSucceeds
    ensures file.Opened? && file.size % WordBytes != 0 ==> r == Failure(Misaligned)
    ensures r.Success? ==> r.value.bytesRead <= r.value.bufferBytes && r.value.codeSize == file.size
  {
    match file
    case Unopenable => Failure(OpenFailed)
    case Opened(size) =>
      if size % WordBytes != 0 then Failure(Misaligned)
      else LoadShaderModule(file, createSucceeds)
  }

  /** On every file the corrected loader accepts, it does exactly what the original does. */
  lemma CheckedAgreesOnAlignedFiles(file: ShaderFile, createSucceeds: bool)
    requires file.Unopenable? || file.size % WordBytes == 0
    ensures LoadShaderModuleChecked(file, createSucceeds) == LoadShaderModule(file, createSucceeds)
  {
  }
}

=== FILE: teardown.dfy ===
/**
 * Typed teardown records for the engine's main deletion queue, and the order in
 * which flushing them destroys GPU objects.
 *
 * Each registration in the source pushes a closure; here each closure is a
 * record naming the handles it destroys, and `Actions` lists them in the order
 * the closure's body destroys them. The queue's `flush` is assumed to run the
 * records last-registered-first and then empty the queue.
 */
module Teardown {
  import opened Handles
  import opened Meshes

  /** The synchronisation objects of one frame slot. */
  datatype FrameSync = FrameSync(fence: Handle, presentSemaphore: Handle, renderSemaphore: Handle)

  datatype Teardown =
    | DestroySwapchain(swapchain: Handle)
    | DestroyDepthImage(view: Handle, image: Handle)
    | DestroyCommandPool(pool: Handle)
    | DestroyRenderPass(renderPass: Handle)
    | DestroyFramebuffer(framebuffer: Handle, imageView: Handle)
    | DestroySyncObjects(frames: seq<FrameSync>)
    | DestroyPipeline(pipeline: Handle, layout: Handle)
    | DestroyBuffer(buffer: AllocatedBuffer)

  function SyncActions(frames: seq<FrameSync>): seq<Handle> {
    if |frames| == 0 then []
    else [frames[0].fence, frames[0].presentSemaphore, frames[0].renderSemaphore] + SyncActions(frames[1..])
  }

  /** The handles a record destroys, in the order its closure destroys them. */
  function Actions(t: Teardown): seq<Handle> {
    match t
    case DestroySwapchain(s) => [s]
    case DestroyDepthImage(view, image) => [view, image]
    case DestroyCommandPool(pool) => [pool]
    case DestroyRenderPass(pass) => [pass]
    case DestroyFramebuffer(fb, view) => [fb, view]
    case DestroySyncObjects(frames) => SyncActions(frames)
    case DestroyPipeline(pipeline, layout) => [pipeline, layout]
    case DestroyBuffer(b) => [b.buffer, b.allocation]
  }

  /**
   * `user` was created from, or refers to, `used`, so `used` must outlive it.
   * Every device-level object refers to the device; the rest follows the
   * create-info structures of the engine's initialisation.
   */
  predicate Uses(user: Handle, used: Handle) {
    user.Obj? && used.Obj? &&
    match user.kind
    case Window => false
    case Instance => false
    case DebugMessenger => used.kind == Instance
    case Surface => used.kind == Instance || used.kind == Window
    case Device => used.kind == Instance
    case Allocator => used.kind == Device || used.kind == Instance
    case Swapchain => used.kind == Device || used.kind == Surface
    case SwapchainImageView => used.kind == Device || used.kind == Swapchain
    case DepthImage => used.kind == Device || used.kind == Allocator
    case DepthImageView => used.kind == Device || used.kind == DepthImage
    case CommandPool => used.kind == Device
    case CommandBuffer => used.kind == Device || used.kind == CommandPool
    case RenderPass => used.kind == Device
    case Framebuffer =>
      used.kind == Device || used.kind == RenderPass || used.kind == DepthImageView
      || used == Obj(SwapchainImageView, user.id)
    case Fence => used.kind == Device
    case PresentSemaphore => used.kind == Device
    case RenderSemaphore => used.kind == Device
    case PipelineLayout => used.kind == Device
    case Pipeline => used.kind == Device || used.kind == PipelineLayout || used.kind == RenderPass
    case VertexBuffer => used.kind == Device || used.kind == Allocator || used == Obj(BufferAllocation, user.id)
    case BufferAllocation => used.kind == Allocator
  }

  /** No object is destroyed while something destroyed after it still refers to it. */
  predicate DependentsFirst(order: seq<Handle>) {
    forall i, j :: 0 <= i < j < |order| ==> !Uses(order[j], order[i])
  }

  /**
   * `flush`: the records run last-registered-first. The result holds exactly
   * the handles the registered records destroy.
   */
  function FlushOrder(queue: seq<Teardown>): (r: seq<Handle>)
    ensures forall h :: h in r <==> exists a :: 0 <= a < |queue| && h in Actions(queue[a])
  {
    if |queue| == 0 then []
    else
      var prefix := queue[..|queue| - 1];
      var r := Actions(queue[|queue| - 1]) + FlushOrder(prefix);
      assert forall a :: 0 <= a < |prefix| ==> prefix[a] == queue[a];
      r
  }

  lemma {:induction false} AppendDependentsFirst(a: seq<Handle>, b: seq<Handle>)
    requires DependentsFirst(a) && DependentsFirst(b)
    requires forall x, y :: x in a && y in b ==> !Uses(y, x)
    ensures DependentsFirst(a + b)
  {
    forall i, j | 0 <= i < j < |a + b|
      ensures !Uses((a + b)[j], (a + b)[i])
    {
      if j < |a| {
        assert (a + b)[j] == a[j] && (a + b)[i] == a[i];
      } else if i >= |a| {
        assert (a + b)[j] == b[j - |a|] && (a + b)[i] == b[i - |a|];
      } else {
        assert (a + b)[i] in a && (a + b)[j] in b;
      }
    }
  }

  /** No record refers to an object that a later-registered record destroys. */
  predicate RegistrationClosed(queue: seq<Teardown>) {
    forall a, b, x, y :: 0 <= a < b < |queue| && x in Actions(queue[a]) && y in Actions(queue[b]) ==> !Uses(x, y)
  }

  /**
   * Flushing respects dependencies when each record destroys its own objects
   * dependents-first and no record refers to what a later record destroys.
   */
  lemma {:induction false} FlushRespectsDependencies(queue: seq<Teardown>)
    requires forall a :: 0 <= a < |queue| ==> DependentsFirst(Actions(queue[a]))
    requires RegistrationClosed(queue)
    ensures DependentsFirst(FlushOrder(queue))
    decreases |queue|
  {
    if |queue| > 0 {
      var prefix := queue[..|queue| - 1];
      var last := queue[|queue| - 1];
      assert forall a :: 0 <= a < |prefix| ==> prefix[a] == queue[a];
      FlushRespectsDependencies(prefix);
      forall x, y | x in Actions(last) && y in FlushOrder(prefix)
        ensures !Uses(y, x)
      {
        var a :| 0 <= a < |prefix| && y in Actions(prefix[a]);
        assert y in Actions(queue[a]);
      }
      AppendDependentsFirst(Actions(last), FlushOrder(prefix));
    }
  }

  // ---------------------------------------------------------------------------
  // Records as the engine builds them.

  predicate IsKind(h: Handle, k: Kind) {
    h.Obj? && h.kind == k
  }

  /** A fence or one of the two per-slot semaphores. */
  predicate IsSyncObject(h: Handle) {
    IsKind(h, Fence) || IsKind(h, PresentSemaphore) || IsKind(h, RenderSemaphore)
  }

  predicate SyncWellTyped(f: FrameSync) {
    IsKind(f.fence, Fence) && IsKind(f.presentSemaphore, PresentSemaphore) && IsKind(f.renderSemaphore, RenderSemaphore)
  }

  /**
   * Each record names handles of the kinds its closure destroys; a framebuffer
   * record pairs framebuffer i with swapchain view i, and a buffer with its own allocation.
   */
  predicate WellTyped(t: Teardown) {
    match t
    case DestroySwapchain(s) => IsKind(s, Swapchain)
    case DestroyDepthImage(view, image) => IsKind(view, DepthImageView) && IsKind(image, DepthImage)
    case DestroyCommandPool(pool) => IsKind(pool, CommandPool)
    case DestroyRenderPass(pass) => IsKind(pass, RenderPass)
    case DestroyFramebuffer(fb, view) => IsKind(fb, Framebuffer) && view == Obj(SwapchainImageView, fb.id)
    case DestroySyncObjects(frames) => forall k :: 0 <= k < |frames| ==> SyncWellTyped(frames[k])
    case DestroyPipeline(pipeline, layout) => (pipeline == Null || IsKind(pipeline, Pipeline)) && IsKind(layout, PipelineLayout)
    case DestroyBuffer(b) => IsKind(b.buffer, VertexBuffer) && b.allocation == Obj(BufferAllocation, b.buffer.id)
  }

  lemma {:induction false} SyncActionsKinds(frames: seq<FrameSync>)
    requires forall k :: 0 <= k < |frames| ==> SyncWellTyped(frames[k])
    ensures forall h :: h in SyncActions(frames) ==> IsSyncObject(h)
    decreases |frames|
  {
    if |frames| > 0 {
      SyncActionsKinds(frames[1..]);
      assert forall k :: 0 <= k < |frames[1..]| ==> frames[1..][k] == frames[k + 1];
    }
  }

  /**
   * Within each record the dependent is destroyed first: the pipeline before
   * its layout, the depth view before the depth image, framebuffer i before
   * swapchain view i, a buffer before its allocation.
   */
  lemma RecordDependentsFirst(t: Teardown)
    requires WellTyped(t)
    ensures DependentsFirst(Actions(t))
  {
    match t
    case DestroySyncObjects(frames) =>
      SyncDependentsFirst(frames);
    case DestroyDepthImage(view, image) =>
      PairDependentsFirst(view, image);
    case DestroyFramebuffer(fb, view) =>
      PairDependentsFirst(fb, view);
    case DestroyPipeline(pipeline, layout) =>
      PairDependentsFirst(pipeline, layout);
    case DestroyBuffer(b) =>
      PairDependentsFirst(b.buffer, b.allocation);
    case _ =>
  }

  /** Fences and semaphores refer only to the device, so any order of them is safe. */
  lemma SyncDependentsFirst(frames: seq<FrameSync>)
    requires forall k :: 0 <= k < |frames| ==> SyncWellTyped(frames[k])
    ensures DependentsFirst(SyncActions(frames))
  {
    SyncActionsKinds(frames);
    var order := SyncActions(frames);
    forall i, j | 0 <= i < j < |order|
      ensures !Uses(order[j], order[i])
    {
      assert order[i] in order;
      assert order[j] in order;
      SyncObjectsIndependent(order[j], order[i]);
    }
  }

  /** A fence or semaphore refers only to the device, never to another sync object. */
  lemma SyncObjectsIndependent(user: Handle, used: Handle)
    requires IsSyncObject(user) && IsSyncObject(used)
    ensures !Uses(user, used)
  {
  }

  lemma PairDependentsFirst(first: Handle, second: Handle)
    requires !Uses(second, first)
    ensures DependentsFirst([first, second])
  {
  }

  // ---------------------------------------------------------------------------
  // Ranks: an object's rank is the rank of the teardown record that destroys
  // it, the initialisation stage that registered the record (and, for
  // per-image and per-mesh records, the index). Objects only refer to objects
  // of an earlier or the same rank.

  datatype Rank = Rank(stage: nat, index: nat)

  predicate RankLt(a: Rank, b: Rank) {
    a.stage < b.stage || (a.stage == b.stage && a.index < b.index)
  }

  function RankOf(h: Handle): Rank {
    match h
    case Null => Rank(0, 0)
    case Obj(k, id) =>
      match k
      case Swapchain => Rank(1, 0)
      case DepthImage => Rank(2, 0)
      case DepthImageView => Rank(2, 0)
      case CommandPool => Rank(3, 0)
      case CommandBuffer => Rank(3, 0)
      case RenderPass => Rank(4, 0)
      case Framebuffer => Rank(5, id)
      case SwapchainImageView => Rank(5, id)
      case Fence => Rank(6, 0)
      case PresentSemaphore => Rank(6, 0)
      case RenderSemaphore => Rank(6, 0)
      case PipelineLayout => Rank(7, 0)
      case Pipeline => Rank(7, 0)
      case VertexBuffer => Rank(8, id)
      case BufferAllocation => Rank(8, id)
      case _ => Rank(0, 0)
  }

  function RecordRank(t: Teardown): Rank {
    match t
    case DestroySwapchain(_) => Rank(1, 0)
    case DestroyDepthImage(_, _) => Rank(2, 0)
    case DestroyCommandPool(_) => Rank(3, 0)
    case DestroyRenderPass(_) => Rank(4, 0)
    case DestroyFramebuffer(fb, _) => Rank(5, if fb.Obj? then fb.id else 0)
    case DestroySyncObjects(_) => Rank(6, 0)
    case DestroyPipeline(_, _) => Rank(7, 0)
    case DestroyBuffer(b) => Rank(8, if b.buffer.Obj? then b.buffer.id else 0)
  }

  lemma UsesLowersRank(x: Handle, y: Handle)
    requires Uses(x, y)
    ensures !RankLt(RankOf(x), RankOf(y))
  {
  }

  lemma WellTypedRecordIsRanked(t: Teardown)
    requires WellTyped(t)
    ensures forall h :: h in Actions(t) && h.Obj? ==> RankOf(h) == RecordRank(t)
  {
    forall h | h in Actions(t) && h.Obj?
      ensures RankOf(h) == RecordRank(t)
    {
      ActionHasRecordRank(t, h);
    }
  }

  /** Each handle a well-typed record destroys has the record's rank. */
  lemma ActionHasRecordRank(t: Teardown, h: Handle)
    requires WellTyped(t) && h in Actions(t) && h.Obj?
    ensures RankOf(h) == RecordRank(t)
  {
    match t
    case DestroySyncObjects(frames) =>
      SyncActionRank(frames, h);
    case DestroySwapchain(s) =>
      assert h == s;
    case DestroyDepthImage(view, image) =>
      assert h == view || h == image;
    case DestroyCommandPool(pool) =>
      assert h == pool;
    case DestroyRenderPass(pass) =>
      assert h == pass;
    case DestroyFramebuffer(fb, view) =>
      assert h == fb || h == view;
    case DestroyPipeline(pipeline, layout) =>
      assert h == pipeline || h == layout;
    case DestroyBuffer(b) =>
      assert h == b.buffer || h == b.allocation;
  }

  lemma SyncActionRank(frames: seq<FrameSync>, h: Handle)
    requires forall k :: 0 <= k < |frames| ==> SyncWellTyped(frames[k])
    requires h in SyncActions(frames)
    ensures RankOf(h) == Rank(6, 0)
  {
    SyncActionsKinds(frames);
    SyncObjectRank(h);
  }

  lemma SyncObjectRank(h: Handle)
    requires IsSyncObject(h)
    ensures RankOf(h) == Rank(6, 0)
  {
  }

  /** Records are registered in strictly increasing rank. */
  predicate RanksIncrease(queue: seq<Teardown>) {
    forall a, b :: 0 <= a < b < |queue| ==> RankLt(RecordRank(queue[a]), RecordRank(queue[b]))
  }

  /**
   * A queue of well-typed records registered in increasing rank can be flushed
   * without destroying anything that a not-yet-destroyed object refers to.
   */
  lemma RankedQueueFlushesSafely(queue: seq<Teardown>)
    requires forall a :: 0 <= a < |queue| ==> WellTyped(queue[a])
    requires RanksIncrease(queue)
    ensures DependentsFirst(FlushOrder(queue))
  {
    forall a | 0 <= a < |queue|
      ensures DependentsFirst(Actions(queue[a]))
    {
      RecordDependentsFirst(queue[a]);
    }
    forall a, b, x, y | 0 <= a < b < |queue| && x in Actions(queue[a]) && y in Actions(queue[b])
      ensures !Uses(x, y)
    {
      if Uses(x, y) {
        WellTypedRecordIsRanked(queue[a]);
        WellTypedRecordIsRanked(queue[b]);
        UsesLowersRank(x, y);
        assert false;
      }
    }
    FlushRespectsDependencies(queue);
  }
}

=== FILE: wrappers.dfy ===
/** The result type shared by the engine model. */
module Wrappers {

  /** Either a computed value or the reason the computation stopped. */
  datatype Result<+R, +E> = Success(value: R) | Failure(error: E)
}
